=== FILE: README.md ===
# bitcoin-multisig-wallet: a Dafny model of the wallet core

This project models the pure core of the `bitcoin-multisig-wallet` command-line tool. It covers five pieces:

- **Beacon keys** (`src/beacon.rs`). Two participants' compressed public keys are sorted byte-lexicographically. They are hashed with the tag `threshold-recovery`, and the one resulting scalar tweaks both keys. The tweaked pair is locked in a bare 2-of-2 `OP_CHECKMULTISIG` script. The script is wrapped as a version-0 P2WSH witness program and rendered as a bech32 address.
- **The multisig descriptor builder** (`src/wallet.rs`, `MultisigWallet::new`). It checks the threshold and turns every xpub into a key string ending in `/0/*`. It then assembles `wsh(multi(M,k1,...,kN))` and appends the library checksum. Saving and loading a wallet are modelled as writing and reading a map from path to record.
- **Account keys** (`src/keygen.rs`). The network selects the BIP 84 account path. The key slot `key_<i>.json` is written by `save_keypair`, and the private key is never persisted. `list_keys` keeps only directory entries whose extension is `json`.
- **Network names**. The case-insensitive parser in `src/utilities.rs` accepts `bitcoin`, `testnet`, `signet` and `regtest`. The case-sensitive match in `src/main.rs` accepts `mainnet`, `testnet` and `regtest`.
- **The command handlers** of `src/main.rs` that reach the core: `generate-key`, `list-keys` and `create`. This includes splitting the `--xpubs` argument on `,` and trimming each piece.

Library code that the core calls is modelled in one of two ways. Where the library's behaviour is a fixed encoding, it is written out: the SEC 1 compressed-key serialisation and, for the 33-byte inputs the core passes, its parser's length and prefix checks, the group-order range check of `Scalar::from_be_bytes`, the bech32 data part (version character and 8-to-5-bit regrouping of the program), and the `DerivationPath` display form. Everything else has no body in the model: SHA-256, the secp256k1 on-curve test and `add_exp_tweak`, the bech32 checksum, BIP 32 derivation and xpub parsing, and descriptor-key and descriptor parsing with checksums. Each of these is a field of a record of total functions (`Crypto.Primitives`, `Bip32.Library`, `Wallet.DescriptorLibrary`). Every operation that needs one takes that record as a parameter. The few facts the core relies on are stated as ghost `Valid` predicates:

- a tweak result is a curve point;
- an accepted xpub is non-empty Base58 text.

Randomness (the key seed) and the home directory are also parameters. The file system is a map from file name to content.

Modules follow the program's structure:

| module | covers |
|---|---|
| `Results`, `Bytes`, `Text` | Shared building blocks: results, byte order, and the Rust string functions used (`split`, `trim`, `to_lowercase`, decimal formatting). |
| `Networks` | The two network-name parsers. |
| `Segwit`, `Crypto` | Address rendering and the SEC 1 compressed-key encoding. |
| `Beacon` | `src/beacon.rs`. |
| `Bip32`, `Keygen` | Derivation paths and `src/keygen.rs`. |
| `Wallet` | `src/wallet.rs`. |
| `Cli` | The `src/main.rs` handlers. |

Key modelling assumptions:

- The doc comment of `derive_beacon_keys` (lines 23-24 of `src/beacon.rs`) describes the result as (tweaked k_i, tweaked k_j). The code returns the tweaked lower key first and the tweaked higher key second, which is what the source's own test of argument order (lines 117-120) relies on. The model follows the code: `Beacon.DeriveBeaconKeys` and `Beacon.DeriveBeaconKeysCommutative`.
- `create_beacon_address` sorts its keys with the library's key order. The model assumes this order is byte-lexicographic on the 33-byte serialisation, the same order `derive_beacon_keys` uses.
- Errors are the source's own message strings. Where a message comes from a library, it is whatever that library's record returns, except in three places where the model uses a fixed stand-in text: `malformed public key` for a rejected public key, `bad tweak` for a failed tweak, and `No such file or directory (os error 2)` for loading a missing wallet file.

## Model

| member | source | states |
|---|---|---|
| Bytes.LexLeTotal | src/beacon.rs:29-31 | Any two byte strings are comparable, so sorting the two serialised keys always has an answer. |
| Bytes.LexLeAntisymmetric | src/beacon.rs:29-31 | Two byte strings that are each at most the other are equal, so the sorted pair is unique. |
| Bytes.LexLeTransitive | src/beacon.rs:29-31 | The byte order used to sort keys is transitive. |
| Bytes.LexLeReflexive | src/beacon.rs:29-31 | Every byte string is at most itself, so a key paired with itself sorts. |
| Bytes.AsciiBytes | src/beacon.rs:35 | The tag `threshold-recovery` contributes one byte per character. |
| Crypto.Serialize | src/beacon.rs:182-189 | Every key serialises to 33 bytes whose first byte is 0x02 or 0x03. |
| Crypto.ParsePublicKey | src/beacon.rs:41-42 | On the compressed encodings the core passes it, `from_slice` accepts exactly 33 bytes with prefix 0x02 or 0x03 whose x-coordinate is on the curve, and accepted bytes re-serialise to themselves. |
| Crypto.SerializeInjective | src/beacon.rs:29-31 | Distinct keys have distinct serialisations, so sorting the bytes sorts the keys. |
| Crypto.ParseSerialize | src/beacon.rs:41-42 | Re-parsing a serialised curve point gives back the same key. |
| Beacon.SortBytes | src/beacon.rs:29-31 | The result is the two inputs, in either order, with the first at most the second. |
| Beacon.SortBytesSymmetric | src/beacon.rs:29-31 | Sorting two keys' bytes gives the same pair whichever argument comes first. |
| Beacon.BeaconPreimageLayout | src/beacon.rs:34-38 | The hashed data is 84 bytes: the 18-byte tag, then the lower and then the higher serialisation, in order. |
| Beacon.BeaconPreimageDeterminesPair | src/beacon.rs:147-154 | Two key pairs with the same preimage are the same unordered pair, so distinct pairs get distinct tweaks unless SHA-256 collides. |
| Beacon.DeriveBeaconKeys | src/beacon.rs:25-49 | Inputs off the curve are rejected. Otherwise the result is Ok exactly when both tweaks succeed. The first output is the smaller key tweaked and the second is the larger one, both by the same scalar. |
| Beacon.DeriveBeaconKeysCommutative | src/beacon.rs:117-120 | Swapping the arguments changes neither the tweak nor the derived pair. |
| Beacon.DeriveBeaconKeysSameKey | src/beacon.rs:158-167 | Pairing a key with itself is accepted whenever its tweak succeeds, and then the two outputs are equal. |
| Beacon.DeriveBeaconKeysOutputs | src/beacon.rs:178-189 | Each derived key is a curve point, serialised as 33 bytes with prefix 0x02 or 0x03. |
| Beacon.MultisigScriptRoundTrip | src/beacon.rs:70-76 | The script is 71 bytes: `OP_2`, two 33-byte key pushes in order, `OP_2`, `OP_CHECKMULTISIG`. Decoding it returns the two keys. |
| Beacon.MultisigScriptInjective | src/beacon.rs:70-76 | Different ordered key pairs give different scripts. |
| Beacon.CreateBeaconAddress | src/beacon.rs:60-81 | Ok exactly when both keys are curve points. The address is then version 0 on the given network, with program SHA-256 of the script over the sorted keys. |
| Beacon.CreateBeaconAddressCommutative | src/beacon.rs:65-67 | The address does not depend on the order of the two keys. |
| Beacon.BeaconAddressString | src/beacon.rs:124-206 | The address text starts with the hrp and `1q` and has 60 characters after the hrp. On mainnet it starts with `bc1q` and is longer than 60; on testnet it starts with `tb1q`; regtest (`bcrt1q`) is accepted. |
| Beacon.BeaconEndToEnd | src/beacon.rs:124-136 | From two curve points, when both tweaks succeed, the derived pair has an address, and the whole pipeline is independent of argument order. |
| Segwit.Regroup | src/beacon.rs:79 | Regrouping bits into 5-bit values with zero padding gives ceil(bits/5) values. |
| Segwit.EncodeSegwit | src/beacon.rs:79 | The address starts with the hrp, `1` and the version character. Its length is the hrp, the separator, the version, the regrouped program and six checksum characters. |
| Segwit.P2wshAddressShape | src/beacon.rs:79 | A version-0 address with a 32-byte program starts with the hrp and `1q` and has exactly 60 characters after the hrp. |
| Networks.NetworkFromString | src/utilities.rs:20-27 | Ok exactly when the lower-cased name is one of `bitcoin`, `testnet`, `signet`, `regtest`, and the network is the one so named. Every other input, `mainnet` included, is `Unsupported network: <name>`. |
| Networks.AnyCasingAccepted | src/utilities.rs:21-25 | Every casing of a network's name parses to that network. |
| Networks.NetworkFromStringIgnoresCase | src/utilities.rs:21 | Two names that lower-case alike parse alike. |
| Networks.NetworkFromStringInjective | src/utilities.rs:22-25 | Names that parse to the same network are the same name up to case. |
| Networks.ParseCliNetwork | src/main.rs:68-73 | Ok exactly for `mainnet`, `testnet` and `regtest`, mapped to Bitcoin, Testnet and Regtest. Everything else is `Invalid network`. |
| Networks.CliNeverSignet | src/main.rs:68-73 | The command line can never select Signet. |
| Networks.CliRejectsUpperCase | src/main.rs:68-72 | A name with an upper-case letter is `Invalid network`. |
| Networks.ParsersOverlap | src/main.rs:68-73 | Both parsers accept a name exactly when it is `testnet` or `regtest`, and then they agree. |
| Networks.ParsersDisagree | src/main.rs:68-73 | `mainnet` is accepted only by the command line, while `bitcoin`, `signet` and `Testnet` are accepted only by the utility parser. |
| Text.NatToString | src/wallet.rs:54-58 | A number's decimal text is a non-empty string of digits with no leading zero, and it is `0` exactly for zero. |
| Text.NatToStringRoundTrip | src/wallet.rs:54-58 | Reading back a number's decimal text gives the number. |
| Text.NatToStringInjective | src/keygen.rs:93 | Distinct numbers have distinct decimal texts. |
| Text.Split | src/main.rs:113-114 | `split(',')` gives one more piece than there are separators. No piece contains the separator, and joining the pieces gives back the input. |
| Text.SplitNoSeparator | src/main.rs:113-114 | Text without a separator splits into one piece. |
| Text.SplitAtFirstSeparator | src/main.rs:113-114 | Splitting cuts at the first separator and continues on the rest. |
| Text.SplitJoin | src/main.rs:113-114 | Joining pieces that contain no separator and splitting again gives back the pieces. |
| Text.TrimStart | src/main.rs:115 | Removes only leading whitespace: the result is a suffix of the input and every removed character is whitespace. |
| Text.TrimEnd | src/main.rs:115 | Removes only trailing whitespace: the result is a prefix of the input and every removed character is whitespace. |
| Text.TrimIsInfix | src/main.rs:115 | The trimmed piece is the contiguous part of the original piece that starts where leading trimming stopped. |
| Text.TrimRemovesWhitespace | src/main.rs:115 | Every character cut from either end of a piece by trimming is whitespace. |
| Text.TrimStartStops | src/main.rs:115 | Leading trimming stops at the first non-whitespace character. |
| Text.TrimEndStops | src/main.rs:115 | Trailing trimming stops at the last non-whitespace character. |
| Text.TrimStops | src/main.rs:115 | A non-empty trimmed piece neither starts nor ends with whitespace. |
| Keygen.AccountPathText | src/keygen.rs:52-57 | Every network but Signet has an account path. Signet gives `Unsupported network`. |
| Keygen.AccountPath | src/keygen.rs:52-59 | The parsed path renders back to `m/84'/0'/0'` on Bitcoin and `m/84'/1'/0'` on Testnet and Regtest; the only failure is `Unsupported network`. |
| Keygen.FormatAccountPath | src/keygen.rs:52-59 | The account path for a one-digit coin type renders as `m/84'/<coin>'/0'`. |
| Keygen.AccountPathsDifferInCoinType | src/keygen.rs:52-55 | All account paths are three hardened steps: 84, coin type, 0. They agree exactly when both or neither network is Bitcoin. |
| Keygen.FromRecord | src/keygen.rs:12-19 | A key pair read from disk has no private key. |
| Keygen.RecordRoundTrip | src/keygen.rs:12-19 | Writing a key pair and reading it back gives the same pair without its private key. The public record survives a second round trip unchanged. |
| Keygen.SlotNameInjective | src/keygen.rs:93 | Distinct indices name distinct slot files. |
| Keygen.LastIndexOf | src/keygen.rs:83 | Finds the last occurrence of a character, or reports that there is none. |
| Keygen.Extension | src/keygen.rs:83 | A name has an extension exactly when it is not `..` and has a `.` after its first character. The extension is the text after the last `.` and contains no `.`; `..` has none. |
| Keygen.LastIndexOfAppend | src/keygen.rs:83 | A character followed by text that does not contain it is the last occurrence. |
| Keygen.SlotNameIsJson | src/keygen.rs:83-93 | Every slot file has the extension `json`, so `list_keys` reads it. |
| Keygen.NewKeyGenerator | src/keygen.rs:27-39 | A generator exists exactly when the home directory is known, and it keeps its network. |
| Keygen.SaveKeypair | src/keygen.rs:92-97 | Writes the public record at slot `key_<i>.json`, replacing any record there. Every other file is unchanged. |
| Keygen.SaveKeypairOtherSlots | src/keygen.rs:93-95 | Saving at one index leaves every other index's slot, present or absent, as it was. |
| Keygen.GenerateKey | src/keygen.rs:41-77 | Ok exactly when the master key, the account path and the derivation all succeed, so Signet always fails. A failed master key passes its error through; after a master key, Signet fails with `Unsupported network`. On Ok, the pair carries the private key and the generator's network and is saved at its slot. On error the directory is unchanged. |
| Keygen.ListKeys | src/keygen.rs:79-90 | Ok exactly when every `json` entry holds a key record. The listing is then the records of the `json` entries in directory order, one per entry, none with a private key; other entries are ignored. |
| Keygen.JsonRecords | src/keygen.rs:79-90 | No record read back from a `json` slot carries a private key. |
| Keygen.JsonRecordsComplete | src/keygen.rs:81-87 | Every `json` entry holding a key record contributes that record to the listing. |
| Keygen.JsonRecordsSound | src/keygen.rs:81-87 | Every listed pair comes from some `json` entry holding that record. |
| Keygen.ListKeysMembers | src/keygen.rs:79-90 | A successful listing holds a pair exactly when some `json` entry holds its record. |
| Keygen.GeneratedKeyIsListed | src/keygen.rs:74-90 | After a successful generation, listing the directory includes the new pair without its private key. |
| Wallet.DescriptorKeys | src/wallet.rs:38-51 | Ok exactly when every `<xpub>/0/*` key string is accepted, and then the key strings are in input order. Otherwise the error names the first rejected key's failure. |
| Wallet.ParsePolicyString | src/wallet.rs:54-58 | The policy string `wsh(multi(M,k1,...))` parses back to the threshold and the key strings. |
| Wallet.KeyStringsWellFormed | src/wallet.rs:40 | Every key string is non-empty and contains neither `,` nor `#`. |
| Wallet.KeyStringsInjective | src/wallet.rs:40 | Different xpub lists give different key-string lists. |
| Wallet.JoinAvoids | src/wallet.rs:57 | Joining pieces that avoid a character, with a different separator, gives text without that character. |
| Wallet.PolicyStringHasNoHash | src/wallet.rs:54-58 | The policy string contains no `#`, so the checksum separator is unambiguous. |
| Wallet.NewWallet | src/wallet.rs:26-86 | A threshold above the key count fails before any string is built. Otherwise the result is Ok exactly when every key and the policy string are accepted and the home directory is known. The descriptor is then the policy string, `#` and its checksum, and the network and path are stored as given. |
| Wallet.PolicyPartOfDescriptor | src/wallet.rs:70 | The text before the `#` of a checksummed descriptor is its policy string. |
| Wallet.DescriptorIdentifiesWallet | src/wallet.rs:39-85 | Two wallets have the same descriptor exactly when they have the same threshold and the same xpubs in the same order, whatever their networks. |
| Wallet.DescriptorRoundTrip | src/wallet.rs:54-70 | The descriptor's policy part re-parses to the threshold and the key strings, in input order. |
| Wallet.SwappedKeysChangeDescriptor | src/wallet.rs:39-58 | Keys are not sorted, so swapping two distinct xpubs changes the descriptor. |
| Wallet.SaveWallet | src/wallet.rs:88-98 | Loading from the wallet's own path gives back the saved wallet. Every other path keeps its record. |
| Cli.ParseAll | src/main.rs:115-116 | Ok exactly when every piece parses, with one xpub per piece. Otherwise the error is some piece's parse error. |
| Cli.ParseAllFirstError | src/main.rs:113-116 | When some piece is rejected and every earlier piece is accepted, the list fails with that piece's error, as `collect` stops at the first `Err`. |
| Cli.XpubPieces | src/main.rs:113-115 | There is one trimmed piece per comma plus one. |
| Cli.ParseXpubList | src/main.rs:113-116 | The list parses exactly when every trimmed piece does. It then has commas-plus-one non-empty xpubs, so an empty piece fails. |
| Cli.RunGenerateKey | src/main.rs:67-76 | A bad network name is `Invalid network`. Ok exactly when the name is valid, the home directory is known and derivation succeeds. An unknown home directory is `Could not find home directory`. Otherwise the result is exactly `generate_key` on the parsed network, and the pair is saved at its slot. Wallet files are untouched. |
| Cli.RunListKeys | src/main.rs:83-92 | A bad network name is `Invalid network`, and an unknown home directory is `Could not find home directory`. Otherwise the result is `list_keys`: the network does not filter the listing, and no listed pair holds a private key. |
| Cli.CreateWallet | src/main.rs:106-118 | A bad network name, then a bad xpub piece, fail before `MultisigWallet::new` is reached. When both parse, the result is exactly `MultisigWallet::new` on the parsed list, threshold and network. |
| Cli.CreateWalletDescriptor | src/main.rs:113-118 | The wallet `create` builds lives under the home directory, keeps the parsed network, and its policy re-parses to the threshold and the key strings of the trimmed pieces. |
| Cli.RunCreate | src/main.rs:101-121 | Nothing is written unless every step succeeds. On success the saved wallet loads back from its path, every other wallet file keeps its record, and the key directory is never touched. |
| Cli.CreatedDescriptorKeys | src/main.rs:113-119 | After `create`, the wallet file's descriptor re-parses to the threshold and one key per comma-separated piece, each the trimmed piece followed by `/0/*`, in argument order. |

## Left out

- SHA-256, secp256k1 point validation and `add_exp_tweak`, the bech32 checksum, BIP 32 master-key creation, derivation, fingerprints and xpub parsing, descriptor-key and descriptor parsing, and the descriptor checksum are library code outside this repository. They are uninterpreted parameters.
- Crypto.Valid, Bip32.Valid: the only library facts assumed are that a tweak yields a curve point and that an accepted xpub is non-empty Base58 text.
- Crypto.ParsePublicKey: only the 33-byte compressed form is modelled. The library's `from_slice` also accepts 65-byte uncompressed keys with prefix 0x04, but the core only ever passes it the output of `serialize()` (lines 29, 41-42 and 62-63 of `src/beacon.rs`), which is always compressed; the model rejects any other length.
- Beacon.DeriveBeaconKeys: the hash must be below the group order (`TweakInRange`) as a precondition, because the source panics via `expect("Invalid tweak")` rather than returning an error.
- Beacon.BeaconPreimageDeterminesPair: the uniqueness test of beacon keys for different pairs rests on SHA-256 collision resistance, which cannot be proved. The model proves the part that can be: different pairs hash different data.
- Beacon.DeriveBeaconKeysSameKey: states success only when the curve addition succeeds, since that addition is an uninterpreted library call.
- The test that beacon keys differ from the input keys depends on the group law of secp256k1. It is not modelled.
- Beacon.CreateBeaconAddress: assumes the library's public-key order is byte-lexicographic on the 33-byte serialisation.
- Randomness: the seed of `generate_key` is a parameter. `generate_random_xpub_and_mnemonic` in `src/utilities.rs` (random seed, BIP 39 mnemonic and library calls) is not modelled.
- File-system failures of `create_dir_all`, `fs::write`, `read_to_string`, `fs::read_dir` and the per-entry `entry?` in `list_keys` (lines 81-82 of `src/keygen.rs`) are not modelled. Neither are JSON encoding failures. The key directory is a map from file name to content, and the listing order of `read_dir` is an input sequence.
- `get_new_address`, `get_balance` and `create_wallet`, and the `get-address` and `get-balance` subcommands, are not modelled. They need the BDK wallet and an Electrum server.
- The clap argument definitions and defaults, all `println!` output, and the re-exports in `src/lib.rs` are not modelled.
- Text.ToLower: lower-cases ASCII letters only. Rust's `to_lowercase` also maps non-ASCII letters, but only two of them lower-case to text containing an ASCII letter. The Kelvin sign becomes `k`, and none of the four network names contains a `k`. U+0130 (capital I with dot above) becomes `i` followed by the combining dot U+0307, which no network name contains. So the match outcome is the same.
- Cli.RunGenerateKey, Cli.RunListKeys, Cli.RunCreate: the network match is written three times in the source (lines 68-73, 84-89 and 106-111 of `src/main.rs`). It is modelled once as `Networks.ParseCliNetwork` and shared by all three.
- Bip32.ParseXpub: an accepted xpub is represented by its own text, so `xpub.to_string()` (line 40 of `src/wallet.rs`) is assumed to give back the trimmed argument exactly. Wallet.DescriptorRoundTrip, Wallet.DescriptorIdentifiesWallet and Cli.CreatedDescriptorKeys depend on this.
- Wallet.DescriptorKeys: a parsed descriptor key is assumed to display as the `<xpub>/0/*` string it was parsed from (`desc_key.to_string()`, line 50 of `src/wallet.rs`). Wallet.DescriptorRoundTrip, Wallet.DescriptorIdentifiesWallet and Cli.CreatedDescriptorKeys depend on this.
- Wallet.NewWallet: a parsed descriptor is assumed to display as the policy string, `#` and the library checksum (`desc.to_string()`, line 70 of `src/wallet.rs`). Wallet.DescriptorRoundTrip, Wallet.DescriptorIdentifiesWallet and Cli.CreatedDescriptorKeys depend on this.
- Wallet.LoadWallet: a wallet file whose JSON fails to decode (`serde_json::from_str` in `load`, line 96 of `src/wallet.rs`) cannot be represented, because a stored file is either a wallet record or absent. Only the missing-file error is modelled.
- There is no slot-conflict check and no single-key beacon mode in the code, so none is modelled. Saving at an occupied slot replaces its record.

=== FILE: beacon.dfy ===
/** Beacon keys (src/beacon.rs): a pair of keys tweaked by one scalar derived
    from both participants' keys, and the P2WSH address of the 2-of-2
    multisig script over them. */
module Beacon {
  import opened Bytes
  import opened Results
  import opened Crypto
  import opened Networks
  import opened Segwit
  import opened Text

  /** The domain-separation tag, 18 bytes. */
  const TWEAK_TAG: seq<Byte> := AsciiBytes("threshold-recovery")

  const OP_PUSHNUM_2: Byte := 0x52
  const OP_PUSHBYTES_33: Byte := 0x21
  const OP_CHECKMULTISIG: Byte := 0xae

  /** `vec![a, b].sort()`: a stable ascending sort of two byte strings. */
  function SortBytes(a: seq<Byte>, b: seq<Byte>): (r: (seq<Byte>, seq<Byte>))
    ensures LexLe(r.0, r.1)
    ensures (r.0 == a && r.1 == b) || (r.0 == b && r.1 == a)
  {
    if LexLe(a, b) then (a, b) else LexLeTotal(a, b); (b, a)
  }

  /** Sorting two byte strings does not depend on the order they are given in. */
  lemma SortBytesSymmetric(a: seq<Byte>, b: seq<Byte>)
    ensures SortBytes(a, b) == SortBytes(b, a)
  {
    if LexLe(a, b) && LexLe(b, a) {
      LexLeAntisymmetric(a, b);
    }
  }

  /** The key whose serialisation sorts first, and the other one. */
  function Lower(a: PublicKey, b: PublicKey): PublicKey {
    if LexLe(Serialize(a), Serialize(b)) then a else b
  }

  function Upper(a: PublicKey, b: PublicKey): PublicKey {
    if LexLe(Serialize(a), Serialize(b)) then b else a
  }

  function TweakPreimage(lo: seq<Byte>, hi: seq<Byte>): seq<Byte> {
    TWEAK_TAG + lo + hi
  }

  /** The hashed data for a pair of keys: tag, then the smaller and the larger
      serialisation. */
  function BeaconPreimage(a: PublicKey, b: PublicKey): seq<Byte> {
    var sorted := SortBytes(Serialize(a), Serialize(b));
    TweakPreimage(sorted.0, sorted.1)
  }

  /** The preimage is the 18-byte tag, the lower key and the higher key:
      84 bytes in all. */
  lemma BeaconPreimageLayout(a: PublicKey, b: PublicKey)
    ensures var d := BeaconPreimage(a, b);
      && |d| == 84
      && d[..18] == TWEAK_TAG
      && d[18..51] == Serialize(Lower(a, b))
      && d[51..] == Serialize(Upper(a, b))
      && LexLe(d[18..51], d[51..])
  {
    var d := BeaconPreimage(a, b);
    assert d[18..51] == SortBytes(Serialize(a), Serialize(b)).0;
  }

  /** Distinct unordered pairs of keys have distinct preimages, so two pairs
      can share a tweak only through a SHA-256 collision. */
  lemma BeaconPreimageDeterminesPair(a: PublicKey, b: PublicKey, c: PublicKey, d: PublicKey)
    requires BeaconPreimage(a, b) == BeaconPreimage(c, d)
    ensures (a == c && b == d) || (a == d && b == c)
  {
    BeaconPreimageLayout(a, b);
    BeaconPreimageLayout(c, d);
    var e := BeaconPreimage(a, b);
    assert Serialize(Lower(a, b)) == Serialize(Lower(c, d));
    assert Serialize(Upper(a, b)) == Serialize(Upper(c, d));
    SerializeInjective(Lower(a, b), Lower(c, d));
    SerializeInjective(Upper(a, b), Upper(c, d));
  }

  function TweakHash(p: Primitives, a: PublicKey, b: PublicKey): Bytes32 {
    p.sha256(BeaconPreimage(a, b))
  }

  /** The hash, read as a big-endian integer, is below the group order; the
      source panics otherwise (`expect("Invalid tweak")`). */
  predicate TweakInRange(p: Primitives, a: PublicKey, b: PublicKey) {
    BeValue(TweakHash(p, a, b)) < CURVE_ORDER
  }

  function Tweak(p: Primitives, a: PublicKey, b: PublicKey): Scalar
    requires TweakInRange(p, a, b)
  {
    BeValue(TweakHash(p, a, b))
  }

  /** `derive_beacon_keys`: sort the two serialisations, hash the tagged
      concatenation, and add the same tweak to both keys. The first output
      belongs to the lower key and the second to the higher one. */
  function DeriveBeaconKeys(p: Primitives, ki: PublicKey, kj: PublicKey): (r: Result<(PublicKey, PublicKey)>)
    requires TweakInRange(p, ki, kj)
    ensures r.Ok? ==> IsPoint(p, ki) && IsPoint(p, kj)
    ensures IsPoint(p, ki) && IsPoint(p, kj) ==>
              (r.Ok? <==> p.addExpTweak(Lower(ki, kj), Tweak(p, ki, kj)).Some?
                          && p.addExpTweak(Upper(ki, kj), Tweak(p, ki, kj)).Some?)
    ensures r.Ok? ==> && p.addExpTweak(Lower(ki, kj), Tweak(p, ki, kj)).Some?
                      && p.addExpTweak(Upper(ki, kj), Tweak(p, ki, kj)).Some?
                      && r.value.0 == p.addExpTweak(Lower(ki, kj), Tweak(p, ki, kj)).value
                      && r.value.1 == p.addExpTweak(Upper(ki, kj), Tweak(p, ki, kj)).value
  {
    var sorted := SortBytes(Serialize(ki), Serialize(kj));
    var data := TweakPreimage(sorted.0, sorted.1);
    var tweakHash := p.sha256(data);
    var key1 :- ParsePublicKey(p, sorted.0);
    var key2 :- ParsePublicKey(p, sorted.1);
    var tweak := ScalarFromBeBytes(tweakHash).value;
    SerializeInjective(key1, Lower(ki, kj));
    SerializeInjective(key2, Upper(ki, kj));
    var beacon1 :- AddExpTweak(p, key1, tweak);
    var beacon2 :- AddExpTweak(p, key2, tweak);
    Ok((beacon1, beacon2))
  }

  /** Swapping the arguments changes neither the tweak nor the output. */
  lemma DeriveBeaconKeysCommutative(p: Primitives, a: PublicKey, b: PublicKey)
    requires TweakInRange(p, a, b)
    ensures TweakInRange(p, b, a) && Tweak(p, a, b) == Tweak(p, b, a)
    ensures DeriveBeaconKeys(p, a, b) == DeriveBeaconKeys(p, b, a)
  {
    SortBytesSymmetric(Serialize(a), Serialize(b));
  }

  /** A key paired with itself is accepted; when the tweak succeeds the two
      outputs coincide. */
  lemma DeriveBeaconKeysSameKey(p: Primitives, k: PublicKey)
    requires IsPoint(p, k) && TweakInRange(p, k, k)
    ensures DeriveBeaconKeys(p, k, k).Ok? <==> p.addExpTweak(k, Tweak(p, k, k)).Some?
    ensures DeriveBeaconKeys(p, k, k).Ok? ==>
              DeriveBeaconKeys(p, k, k).value.0 == DeriveBeaconKeys(p, k, k).value.1
  {
  }

  /** Every output is a point on the curve, serialised as 33 bytes with prefix
      0x02 or 0x03. */
  lemma DeriveBeaconKeysOutputs(p: Primitives, a: PublicKey, b: PublicKey)
    requires Valid(p) && TweakInRange(p, a, b)
    requires DeriveBeaconKeys(p, a, b).Ok?
    ensures var (b1, b2) := DeriveBeaconKeys(p, a, b).value;
      && IsPoint(p, b1) && IsPoint(p, b2)
      && |Serialize(b1)| == 33 && Serialize(b1)[0] in {0x02, 0x03}
      && |Serialize(b2)| == 33 && Serialize(b2)[0] in {0x02, 0x03}
  {
  }

  /** The bare 2-of-2 CHECKMULTISIG script (BIP 11) over two keys in the
      order given: `OP_2 <k1> <k2> OP_2 OP_CHECKMULTISIG`. */
  function MultisigScript(k1: PublicKey, k2: PublicKey): seq<Byte> {
    [OP_PUSHNUM_2, OP_PUSHBYTES_33] + Serialize(k1) + [OP_PUSHBYTES_33] + Serialize(k2)
    + [OP_PUSHNUM_2, OP_CHECKMULTISIG]
  }

  /** Reads the two pushed keys back out of a 2-of-2 script. */
  function DecodeMultisigScript(script: seq<Byte>): Option<(seq<Byte>, seq<Byte>)> {
    if && |script| == 71
       && script[0] == OP_PUSHNUM_2 && script[1] == OP_PUSHBYTES_33
       && script[35] == OP_PUSHBYTES_33
       && script[69] == OP_PUSHNUM_2 && script[70] == OP_CHECKMULTISIG
    then Some((script[2..35], script[36..69]))
    else None
  }

  /** The script is 71 bytes and decodes to exactly the keys it was built
      from, in order. */
  lemma MultisigScriptRoundTrip(k1: PublicKey, k2: PublicKey)
    ensures |MultisigScript(k1, k2)| == 71
    ensures DecodeMultisigScript(MultisigScript(k1, k2)) == Some((Serialize(k1), Serialize(k2)))
  {
    var s := MultisigScript(k1, k2);
    assert s[2..35] == Serialize(k1);
    assert s[36..69] == Serialize(k2);
  }

  /** Distinct key pairs give distinct scripts. */
  lemma MultisigScriptInjective(a1: PublicKey, a2: PublicKey, b1: PublicKey, b2: PublicKey)
    requires MultisigScript(a1, a2) == MultisigScript(b1, b2)
    ensures a1 == b1 && a2 == b2
  {
    MultisigScriptRoundTrip(a1, a2);
    MultisigScriptRoundTrip(b1, b2);
    SerializeInjective(a1, b1);
    SerializeInjective(a2, b2);
  }

  /** `create_beacon_address`: re-parse both keys, sort them, build the 2-of-2
      script and wrap it as a version-0 witness program (P2WSH, BIP 141) whose
      program is SHA-256 of the script. */
  function CreateBeaconAddress(p: Primitives, beaconKey1: PublicKey, beaconKey2: PublicKey, network: Network): (r: Result<Address>)
    ensures r.Ok? <==> IsPoint(p, beaconKey1) && IsPoint(p, beaconKey2)
    ensures r.Ok? ==> r.value.network == network && r.value.version == 0
    ensures r.Ok? ==> r.value.program == p.sha256(MultisigScript(Lower(beaconKey1, beaconKey2), Upper(beaconKey1, beaconKey2)))
  {
    var btcKey1 :- ParsePublicKey(p, Serialize(beaconKey1));
    var btcKey2 :- ParsePublicKey(p, Serialize(beaconKey2));
    SerializeInjective(btcKey1, beaconKey1);
    SerializeInjective(btcKey2, beaconKey2);
    var sorted := if LexLe(Serialize(btcKey1), Serialize(btcKey2)) then (btcKey1, btcKey2) else (btcKey2, btcKey1);
    var redeemScript := MultisigScript(sorted.0, sorted.1);
    Ok(Address(network, 0, p.sha256(redeemScript)))
  }

  /** The beacon address does not depend on the order of its keys. */
  lemma CreateBeaconAddressCommutative(p: Primitives, k1: PublicKey, k2: PublicKey, network: Network)
    ensures CreateBeaconAddress(p, k1, k2, network) == CreateBeaconAddress(p, k2, k1, network)
  {
    if LexLe(Serialize(k1), Serialize(k2)) && LexLe(Serialize(k2), Serialize(k1)) {
      LexLeAntisymmetric(Serialize(k1), Serialize(k2));
      SerializeInjective(k1, k2);
    } else {
      LexLeTotal(Serialize(k1), Serialize(k2));
    }
  }

  /** The rendered address starts with the network's hrp and "1q" (witness
      version 0) and has 60 characters after the hrp; on mainnet it starts
      with "bc1q" and is longer than 60 characters, on testnet it starts with
      "tb1q", and regtest ("bcrt1q") is accepted like every other network. */
  lemma BeaconAddressString(p: Primitives, k1: PublicKey, k2: PublicKey, network: Network)
    requires IsPoint(p, k1) && IsPoint(p, k2)
    ensures var s := AddressString(p.bech32Checksum, CreateBeaconAddress(p, k1, k2, network).value);
      && StartsWith(s, Hrp(network) + "1q")
      && |s| == |Hrp(network)| + 60
      && (network == Bitcoin ==> StartsWith(s, "bc1q") && |s| > 60)
      && (network == Testnet ==> StartsWith(s, "tb1q"))
      && (network == Regtest ==> StartsWith(s, "bcrt1q"))
  {
    P2wshAddressShape(p.bech32Checksum, CreateBeaconAddress(p, k1, k2, network).value);
  }

  /** From two curve points to an address: when both tweaks succeed, the
      derived pair is on the curve, so its beacon address exists, and the
      whole pipeline is independent of argument order. */
  lemma BeaconEndToEnd(p: Primitives, a: PublicKey, b: PublicKey, network: Network)
    requires Valid(p) && IsPoint(p, a) && IsPoint(p, b) && TweakInRange(p, a, b)
    requires p.addExpTweak(Lower(a, b), Tweak(p, a, b)).Some?
    requires p.addExpTweak(Upper(a, b), Tweak(p, a, b)).Some?
    ensures DeriveBeaconKeys(p, a, b).Ok?
    ensures var (b1, b2) := DeriveBeaconKeys(p, a, b).value;
      && CreateBeaconAddress(p, b1, b2, network).Ok?
      && TweakInRange(p, b, a)
      && DeriveBeaconKeys(p, b, a) == DeriveBeaconKeys(p, a, b)
  {
    DeriveBeaconKeysCommutative(p, a, b);
  }
}

=== FILE: bip32.dfy ===
/** The BIP 32 library surface the source uses: extended keys, derivation
    paths and their text forms. Derivation itself is a foreign computation and
    appears as the fields of `Library`. */
module Bip32 {
  import opened Bytes
  import opened Results
  import opened Text
  import opened Networks

  /** The Base58 alphabet: digits and letters without '0', 'O', 'I', 'l'. */
  predicate IsBase58Char(c: char) {
    || ('1' <= c <= '9')
    || ('A' <= c <= 'H') || ('J' <= c <= 'N') || ('P' <= c <= 'Z')
    || ('a' <= c <= 'k') || ('m' <= c <= 'z')
  }

  predicate IsBase58(s: string) {
    forall i :: 0 <= i < |s| ==> IsBase58Char(s[i])
  }

  /** The text of an `ExtendedPubKey` (Base58Check). */
  type Xpub = s: string | IsBase58(s)

  /** An extended private key, by its serialisation. */
  datatype ExtendedPrivKey = ExtendedPrivKey(encoding: seq<Byte>)

  datatype ChildNumber = Normal(index: nat) | Hardened(index: nat)

  type DerivationPath = seq<ChildNumber>

  datatype Library = Library(
    newMaster: (Network, Bytes32) -> Result<ExtendedPrivKey>,
    derivePriv: (ExtendedPrivKey, DerivationPath) -> Result<ExtendedPrivKey>,
    xpubOf: ExtendedPrivKey -> Xpub,
    xprivText: ExtendedPrivKey -> string,
    fingerprint: ExtendedPrivKey -> string,
    xpubError: string -> Option<string>)

  /** The decoder accepts only non-empty Base58 text, and an accepted string
      is the canonical text of the key it decodes to. */
  ghost predicate Valid(lib: Library) {
    forall s :: lib.xpubError(s).None? ==> IsBase58(s) && |s| > 0
  }

  /** `ExtendedPubKey::from_str`. */
  function ParseXpub(lib: Library, s: string): (r: Result<Xpub>)
    requires Valid(lib)
    ensures r.Ok? <==> lib.xpubError(s).None?
    ensures r.Ok? ==> r.value == s && |s| > 0
    ensures r.Err? ==> r.error == lib.xpubError(s).value
  {
    match lib.xpubError(s)
    case None => Ok(s)
    case Some(e) => Err(e)
  }

  function FormatChild(c: ChildNumber): string {
    match c
    case Normal(i) => NatToString(i)
    case Hardened(i) => NatToString(i) + "'"
  }

  /** The `Display` form of a derivation path, e.g. "m/84'/0'/0'". */
  function FormatPath(path: DerivationPath): string
    decreases |path|
  {
    if |path| == 0 then "m" else FormatPath(path[..|path| - 1]) + "/" + FormatChild(path[|path| - 1])
  }
}

=== FILE: bytes.dfy ===
/** Bytes, the byte-lexicographic order Rust uses for `[u8; 33]`, byte-string
    literals and big-endian integers. */
module Bytes {

  type Byte = b: int | 0 <= b < 256

  type Bytes32 = s: seq<Byte> | |s| == 32 witness seq(32, i => 0)

  /** Lexicographic `<=` on byte strings: a proper prefix sorts first, as for
      Rust slices and arrays. */
  predicate LexLe(a: seq<Byte>, b: seq<Byte>)
    decreases |a|
  {
    |a| == 0 || (|b| > 0 && (a[0] < b[0] || (a[0] == b[0] && LexLe(a[1..], b[1..]))))
  }

  lemma {:induction false} LexLeReflexive(a: seq<Byte>)
    ensures LexLe(a, a)
    decreases |a|
  {
    if |a| > 0 {
      LexLeReflexive(a[1..]);
    }
  }

  lemma {:induction false} LexLeTotal(a: seq<Byte>, b: seq<Byte>)
    ensures LexLe(a, b) || LexLe(b, a)
    decreases |a|
  {
    if |a| > 0 && |b| > 0 && a[0] == b[0] {
      LexLeTotal(a[1..], b[1..]);
    }
  }

  lemma {:induction false} LexLeAntisymmetric(a: seq<Byte>, b: seq<Byte>)
    requires LexLe(a, b) && LexLe(b, a)
    ensures a == b
    decreases |a|
  {
    if |a| > 0 {
      LexLeAntisymmetric(a[1..], b[1..]);
      assert a == [a[0]] + a[1..];
      assert b == [b[0]] + b[1..];
    }
  }

  lemma {:induction false} LexLeTransitive(a: seq<Byte>, b: seq<Byte>, c: seq<Byte>)
    requires LexLe(a, b) && LexLe(b, c)
    ensures LexLe(a, c)
    decreases |a|
  {
    if |a| > 0 && a[0] == b[0] && b[0] == c[0] {
      LexLeTransitive(a[1..], b[1..], c[1..]);
    }
  }

  /** The bytes of a byte-string literal `b"..."` (ASCII text). */
  function AsciiBytes(s: string): (r: seq<Byte>)
    ensures |r| == |s|
  {
    seq(|s|, i requires 0 <= i < |s| => (s[i] as int) % 256)
  }

  /** The unsigned big-endian integer a byte string denotes. */
  function BeValue(s: seq<Byte>): nat
    decreases |s|
  {
    if |s| == 0 then 0 else 256 * BeValue(s[..|s| - 1]) + s[|s| - 1]
  }
}

=== FILE: cli.dfy ===
/** The subcommands of src/main.rs that reach the core: `generate-key`,
    `list-keys` and `create`. Each one first maps its network argument with
    the same case-sensitive match; here that match is the single function
    `Networks.ParseCliNetwork`. Printing is left out. */
module Cli {
  import opened Bytes
  import opened Results
  import opened Text
  import opened Networks
  import opened Bip32
  import opened Keygen
  import opened Wallet

  /** The files the subcommands read and write. */
  datatype Store = Store(keyDir: KeyDir, walletFiles: WalletFiles)

  datatype Outcome<T> = Outcome(result: Result<T>, store: Store)

  /** `.map(ExtendedPubKey::from_str).collect()`: every text is parsed, and
      the first failure is the result. */
  function ParseAll(lib: Library, texts: seq<string>): (r: Result<seq<Xpub>>)
    requires Bip32.Valid(lib)
    ensures r.Ok? <==> forall i :: 0 <= i < |texts| ==> lib.xpubError(texts[i]).None?
    ensures r.Ok? ==> |r.value| == |texts|
    ensures r.Ok? ==> forall i :: 0 <= i < |texts| ==> r.value[i] == texts[i] && |texts[i]| > 0
    ensures r.Err? ==> exists i :: 0 <= i < |texts| && lib.xpubError(texts[i]) == Some(r.error)
    decreases |texts|
  {
    if |texts| == 0 then Ok([])
    else
      var first :- ParseXpub(lib, texts[0]);
      var rest := ParseAll(lib, texts[1..]);
      if rest.Err? then
        var i :| 0 <= i < |texts[1..]| && lib.xpubError(texts[1..][i]) == Some(rest.error);
        assert texts[1..][i] == texts[i + 1];
        Err(rest.error)
      else
        assert forall i :: 0 < i < |texts| ==> texts[i] == texts[1..][i - 1];
        Ok([first] + rest.value)
  }

  /** `collect` stops at the first piece the library rejects: the result is
      that piece's error, whatever the pieces after it hold. */
  lemma {:induction false} ParseAllFirstError(lib: Library, texts: seq<string>, i: nat)
    requires Bip32.Valid(lib)
    requires i < |texts| && lib.xpubError(texts[i]).Some?
    requires forall j :: 0 <= j < i ==> lib.xpubError(texts[j]).None?
    ensures ParseAll(lib, texts) == Err(lib.xpubError(texts[i]).value)
    decreases i
  {
    if i > 0 {
      ParseAllFirstError(lib, texts[1..], i - 1);
    }
  }

  /** The pieces of the `--xpubs` argument: split on ',' and trimmed. */
  function XpubPieces(xpubs: string): (pieces: seq<string>)
    ensures |pieces| == Count(xpubs, ',') + 1
  {
    var parts := Split(xpubs, ',');
    seq(|parts|, i requires 0 <= i < |parts| => Trim(parts[i]))
  }

  /** The `--xpubs` argument parsed piece by piece: there are as many keys as
      commas plus one, each the trimmed piece, and an empty or unparsable
      piece makes the whole list fail. */
  function ParseXpubList(lib: Library, xpubs: string): (r: Result<seq<Xpub>>)
    requires Bip32.Valid(lib)
    ensures r.Ok? <==> forall i :: 0 <= i < |XpubPieces(xpubs)| ==> lib.xpubError(XpubPieces(xpubs)[i]).None?
    ensures r.Ok? ==> |r.value| == Count(xpubs, ',') + 1
    ensures r.Ok? ==> r.value == XpubPieces(xpubs) && forall i :: 0 <= i < |r.value| ==> |r.value[i]| > 0
  {
    ParseAll(lib, XpubPieces(xpubs))
  }

  /** `generate-key`: map the network, create the generator, generate and
      save. Only the key directory can change, and only on success. Since the
      command line never yields Signet, the account path never fails here. */
  function RunGenerateKey(lib: Library, networkArg: string, index: U32, home: Option<string>, seed: Bytes32, store: Store): (out: Outcome<KeyPair>)
    ensures out.store.walletFiles == store.walletFiles
    ensures out.result.Err? ==> out.store == store
    ensures ParseCliNetwork(networkArg).Err? ==> out.result == Err("Invalid network")
    ensures out.result.Ok? <==>
              && ParseCliNetwork(networkArg).Ok?
              && home.Some?
              && var network := ParseCliNetwork(networkArg).value;
                 && lib.newMaster(network, seed).Ok?
                 && lib.derivePriv(lib.newMaster(network, seed).value, AccountPath(network).value).Ok?
    ensures out.result.Ok? ==> out.result.value.network == ParseCliNetwork(networkArg).value
                               && out.store.keyDir == SaveKeypair(store.keyDir, out.result.value, index)
    ensures ParseCliNetwork(networkArg).Ok? && home.None? ==> out.result == Err("Could not find home directory")
    ensures ParseCliNetwork(networkArg).Ok? && home.Some? ==>
              out.result == GenerateKey(lib, NewKeyGenerator(ParseCliNetwork(networkArg).value, home).value, seed, index, store.keyDir).result
  {
    match ParseCliNetwork(networkArg)
    case Err(e) => Outcome(Err(e), store)
    case Ok(network) =>
      match NewKeyGenerator(network, home)
      case Err(e) => Outcome(Err(e), store)
      case Ok(keygen) =>
        var generated := GenerateKey(lib, keygen, seed, index, store.keyDir);
        Outcome(generated.result, store.(keyDir := generated.dir))
  }

  /** `list-keys`: the network argument must be valid but does not select
      which keys are listed. */
  function RunListKeys(networkArg: string, home: Option<string>, entries: seq<DirEntry>): (r: Result<seq<KeyPair>>)
    ensures ParseCliNetwork(networkArg).Err? ==> r == Err("Invalid network")
    ensures ParseCliNetwork(networkArg).Ok? && home.Some? ==> r == ListKeys(entries)
    ensures ParseCliNetwork(networkArg).Ok? && home.None? ==> r == Err("Could not find home directory")
    ensures r.Ok? ==> forall k :: 0 <= k < |r.value| ==> r.value[k].xpriv.None?
  {
    match ParseCliNetwork(networkArg)
    case Err(e) => Err(e)
    case Ok(network) =>
      match NewKeyGenerator(network, home)
      case Err(e) => Err(e)
      case Ok(keygen) => ListKeys(entries)
  }

  /** The first three steps of `create`: map the network, parse the xpub
      list, build the wallet. A bad piece aborts before the wallet is built,
      so its error is reported whatever the threshold. */
  function CreateWallet(blib: Library, dlib: DescriptorLibrary, xpubsArg: string, threshold: nat, networkArg: string,
                        home: Option<string>): (r: Result<MultisigWallet>)
    requires Bip32.Valid(blib)
    ensures ParseCliNetwork(networkArg).Err? ==> r == Err("Invalid network")
    ensures ParseCliNetwork(networkArg).Ok? && ParseXpubList(blib, xpubsArg).Err? ==>
              r == Err(ParseXpubList(blib, xpubsArg).error)
    ensures ParseCliNetwork(networkArg).Ok? && ParseXpubList(blib, xpubsArg).Ok? ==>
              r == NewWallet(dlib, ParseXpubList(blib, xpubsArg).value, threshold, ParseCliNetwork(networkArg).value, home)
    ensures r.Ok? ==> && ParseCliNetwork(networkArg).Ok?
                      && ParseXpubList(blib, xpubsArg).Ok?
                      && r == NewWallet(dlib, ParseXpubList(blib, xpubsArg).value, threshold, ParseCliNetwork(networkArg).value, home)
  {
    match ParseCliNetwork(networkArg)
    case Err(e) => Err(e)
    case Ok(network) =>
      match ParseXpubList(blib, xpubsArg)
      case Err(e) => Err(e)
      case Ok(xpubList) => NewWallet(dlib, xpubList, threshold, network, home)
  }

  /** `create`: build the wallet and save it. Nothing is written unless every
      step succeeds, and the key directory is never touched. */
  function RunCreate(blib: Library, dlib: DescriptorLibrary, xpubsArg: string, threshold: nat, networkArg: string,
                     home: Option<string>, store: Store): (out: Outcome<()>)
    requires Bip32.Valid(blib)
    ensures out.store.keyDir == store.keyDir
    ensures out.result.Err? ==> out.store == store
    ensures out.result.Ok? <==> CreateWallet(blib, dlib, xpubsArg, threshold, networkArg, home).Ok?
    ensures out.result.Ok? ==>
              var w := CreateWallet(blib, dlib, xpubsArg, threshold, networkArg, home).value;
              LoadWallet(out.store.walletFiles, w.walletPath) == Ok(w)
    ensures out.result.Ok? ==>
              var w := CreateWallet(blib, dlib, xpubsArg, threshold, networkArg, home).value;
              forall path :: path in store.walletFiles && path != w.walletPath ==>
                path in out.store.walletFiles && out.store.walletFiles[path] == store.walletFiles[path]
  {
    match CreateWallet(blib, dlib, xpubsArg, threshold, networkArg, home)
    case Err(e) => Outcome(Err(e), store)
    case Ok(wallet) => Outcome(Ok(()), store.(walletFiles := SaveWallet(store.walletFiles, wallet)))
  }

  /** The wallet `create` builds lives under the home directory, keeps the
      network, and its descriptor's policy re-parses to the threshold and the
      key strings of the trimmed pieces. */
  lemma CreateWalletDescriptor(blib: Library, dlib: DescriptorLibrary, xpubsArg: string, threshold: nat, networkArg: string,
                               home: Option<string>)
    requires Bip32.Valid(blib)
    requires CreateWallet(blib, dlib, xpubsArg, threshold, networkArg, home).Ok?
    ensures home.Some?
    ensures var w := CreateWallet(blib, dlib, xpubsArg, threshold, networkArg, home).value;
      && w.walletPath == WalletPath(home.value)
      && w.network == ParseCliNetwork(networkArg).value
      && ParsePolicy(PolicyPart(w.descriptor)) == Some((threshold, KeyStrings(XpubPieces(xpubsArg))))
  {
    var xpubList := ParseXpubList(blib, xpubsArg).value;
    var network := ParseCliNetwork(networkArg).value;
    DescriptorRoundTrip(dlib, xpubList, threshold, network, home);
  }

  /** After a successful `create`, the wallet file under the home directory
      holds a descriptor whose policy re-parses to the threshold and to one
      key per comma-separated piece (commas plus one), each the trimmed piece
      followed by the external-chain wildcard suffix, in the order given. */
  lemma CreatedDescriptorKeys(blib: Library, dlib: DescriptorLibrary, xpubsArg: string, threshold: nat, networkArg: string,
                              home: Option<string>, store: Store)
    requires Bip32.Valid(blib)
    requires RunCreate(blib, dlib, xpubsArg, threshold, networkArg, home, store).result.Ok?
    ensures home.Some?
    ensures var files := RunCreate(blib, dlib, xpubsArg, threshold, networkArg, home, store).store.walletFiles;
      && WalletPath(home.value) in files
      && var saved := files[WalletPath(home.value)];
         && saved.network == ParseCliNetwork(networkArg).value
         && ParsePolicy(PolicyPart(saved.descriptor)).Some?
         && ParsePolicy(PolicyPart(saved.descriptor)).value.0 == threshold
         && |ParsePolicy(PolicyPart(saved.descriptor)).value.1| == Count(xpubsArg, ',') + 1
         && forall i :: 0 <= i < Count(xpubsArg, ',') + 1 ==>
              ParsePolicy(PolicyPart(saved.descriptor)).value.1[i] == XpubPieces(xpubsArg)[i] + "/0/*"
  {
    var w := CreateWallet(blib, dlib, xpubsArg, threshold, networkArg, home).value;
    CreateWalletDescriptor(blib, dlib, xpubsArg, threshold, networkArg, home);
    assert RunCreate(blib, dlib, xpubsArg, threshold, networkArg, home, store).store.walletFiles
           == SaveWallet(store.walletFiles, w);
  }

}

=== FILE: crypto.dfy ===
/** secp256k1 public keys and scalars, and the foreign primitives the source
    calls (SHA-256, the curve, the bech32 checksum) as a record of functions.

    A compressed public key is encoded as in section 2.3.3 of SEC 1: one
    prefix byte 0x02 (even y) or 0x03 (odd y) followed by the 32-byte
    big-endian x-coordinate. */
module Crypto {
  import opened Bytes
  import opened Results
  import Segwit

  /** The order n of the secp256k1 group. */
  const CURVE_ORDER: nat := 0xFFFF_FFFF_FFFF_FFFF_FFFF_FFFF_FFFF_FFFE_BAAE_DCE6_AF48_A03B_BFD2_5E8C_D036_4141

  /** A tweak accepted by `Scalar::from_be_bytes`: 0 <= t < n. */
  type Scalar = t: nat | t < CURVE_ORDER

  /** A point by its x-coordinate and the parity of its y-coordinate. Whether
      the x-coordinate lies on the curve is the `onCurve` primitive. */
  datatype PublicKey = PublicKey(x: Bytes32, oddY: bool)

  /** The library calls the core cannot see. `addExpTweak(k, t)` is
      k + t·G, or None when that is the point at infinity. */
  datatype Primitives = Primitives(
    sha256: seq<Byte> -> Bytes32,
    onCurve: Bytes32 -> bool,
    addExpTweak: (PublicKey, Scalar) -> Option<PublicKey>,
    bech32Checksum: (string, seq<Segwit.U5>) -> Segwit.Checksum)

  /** Point addition never leaves the curve. */
  ghost predicate Valid(p: Primitives) {
    forall k: PublicKey, t: Scalar :: p.addExpTweak(k, t).Some? ==> p.onCurve(p.addExpTweak(k, t).value.x)
  }

  predicate IsPoint(p: Primitives, k: PublicKey) {
    p.onCurve(k.x)
  }

  /** `PublicKey::serialize`: 33 bytes, first byte 0x02 or 0x03. */
  function Serialize(k: PublicKey): (bytes: seq<Byte>)
    ensures |bytes| == 33
    ensures bytes[0] == 0x02 || bytes[0] == 0x03
  {
    [if k.oddY then 0x03 else 0x02] + k.x
  }

  /** `PublicKey::from_slice` on a compressed encoding. */
  function ParsePublicKey(p: Primitives, bytes: seq<Byte>): (r: Result<PublicKey>)
    ensures r.Ok? <==> |bytes| == 33 && (bytes[0] == 0x02 || bytes[0] == 0x03) && p.onCurve(bytes[1..])
    ensures r.Ok? ==> Serialize(r.value) == bytes && IsPoint(p, r.value)
  {
    if |bytes| == 33 && (bytes[0] == 0x02 || bytes[0] == 0x03) && p.onCurve(bytes[1..]) then
      var k := PublicKey(bytes[1..], bytes[0] == 0x03);
      assert Serialize(k) == [bytes[0]] + bytes[1..];
      Ok(k)
    else
      Err("malformed public key")
  }

  lemma SerializeInjective(a: PublicKey, b: PublicKey)
    requires Serialize(a) == Serialize(b)
    ensures a == b
  {
    assert a.x == Serialize(a)[1..];
    assert b.x == Serialize(b)[1..];
  }

  /** Parsing undoes serialisation for every point on the curve. */
  lemma ParseSerialize(p: Primitives, k: PublicKey)
    requires IsPoint(p, k)
    ensures ParsePublicKey(p, Serialize(k)) == Ok(k)
  {
    assert Serialize(k)[1..] == k.x;
    var r := ParsePublicKey(p, Serialize(k));
    SerializeInjective(r.value, k);
  }

  /** `Scalar::from_be_bytes`: the big-endian value, if it is below n. */
  function ScalarFromBeBytes(b: Bytes32): (r: Option<Scalar>)
    ensures r.Some? <==> BeValue(b) < CURVE_ORDER
    ensures r.Some? ==> r.value == BeValue(b)
  {
    if BeValue(b) < CURVE_ORDER then Some(BeValue(b)) else None
  }

  /** `PublicKey::add_exp_tweak`. */
  function AddExpTweak(p: Primitives, k: PublicKey, t: Scalar): (r: Result<PublicKey>)
    ensures r.Ok? <==> p.addExpTweak(k, t).Some?
    ensures r.Ok? ==> r.value == p.addExpTweak(k, t).value
  {
    match p.addExpTweak(k, t)
    case Some(q) => Ok(q)
    case None => Err("bad tweak")
  }
}

=== FILE: keygen.dfy ===
/** Account-key generation and the key-slot store (src/keygen.rs).

    The key directory is a map from file name to content; writing a file
    replaces the entry, and `read_dir` is an enumeration of the entries
    supplied by the caller. */
module Keygen {
  import opened Bytes
  import opened Results
  import opened Text
  import opened Networks
  import opened Bip32

  /** The purpose field of BIP 84 and the SLIP-44 coin types. */
  const PURPOSE: nat := 84
  const COIN_BITCOIN: nat := 0
  const COIN_TESTNET: nat := 1

  type U32 = n: nat | n < 0x1_0000_0000

  /** The path literal `generate_key` selects for each network. */
  function AccountPathText(network: Network): (r: Result<string>)
    ensures r.Ok? <==> network != Signet
    ensures r.Err? ==> r.error == "Unsupported network"
  {
    match network
    case Bitcoin => Ok("m/84'/0'/0'")
    case Testnet => Ok("m/84'/1'/0'")
    case Regtest => Ok("m/84'/1'/0'")
    case _ => Err("Unsupported network")
  }

  function CoinType(network: Network): nat {
    if network == Bitcoin then COIN_BITCOIN else COIN_TESTNET
  }

  /** The path `DerivationPath::from_str` makes of the selected literal: the
      hardened BIP 84 account path m/84'/coin'/0'. */
  function AccountPath(network: Network): (r: Result<DerivationPath>)
    ensures r.Ok? <==> AccountPathText(network).Ok?
    ensures r.Ok? ==> FormatPath(r.value) == AccountPathText(network).value
    ensures r.Err? ==> r.error == "Unsupported network"
  {
    if network == Signet then Err("Unsupported network")
    else
      FormatAccountPath(CoinType(network));
      Ok([Hardened(PURPOSE), Hardened(CoinType(network)), Hardened(0)])
  }

  /** The rendered form of the hardened account path for a one-digit coin type. */
  lemma FormatAccountPath(coin: nat)
    requires coin < 10
    ensures FormatPath([Hardened(PURPOSE), Hardened(coin), Hardened(0)]) == "m/84'/" + [DigitChar(coin)] + "'/0'"
  {
    var path := [Hardened(PURPOSE), Hardened(coin), Hardened(0)];
    assert NatToString(84) == "84" by {
      assert NatToString(84) == NatToString(8) + [DigitChar(4)];
    }
    assert path[..2][..1] == path[..1] == [Hardened(PURPOSE)];
    assert path[..1][..0] == [];
    assert FormatPath(path[..1]) == "m/84'";
    assert FormatPath(path[..2]) == "m/84'/" + [DigitChar(coin)] + "'";
  }

  /** Mainnet and the test networks use account paths that differ in the
      coin-type segment only. */
  lemma AccountPathsDifferInCoinType(a: Network, b: Network)
    requires AccountPath(a).Ok? && AccountPath(b).Ok?
    ensures |AccountPath(a).value| == |AccountPath(b).value| == 3
    ensures AccountPath(a).value[0] == AccountPath(b).value[0] == Hardened(84)
    ensures AccountPath(a).value[2] == AccountPath(b).value[2] == Hardened(0)
    ensures AccountPath(a).value[1] == Hardened(if a == Bitcoin then 0 else 1)
    ensures (AccountPath(a).value == AccountPath(b).value) <==> ((a == Bitcoin) == (b == Bitcoin))
  {
  }

  datatype KeyPair = KeyPair(xpub: string, xpriv: Option<string>, fingerprint: string, network: Network)

  /** What is written to disk: every field but `xpriv` (`#[serde(skip)]`). */
  datatype KeyRecord = KeyRecord(xpub: string, fingerprint: string, network: Network)

  function ToRecord(kp: KeyPair): KeyRecord {
    KeyRecord(kp.xpub, kp.fingerprint, kp.network)
  }

  /** Reading a record back; the skipped field takes its default, None. */
  function FromRecord(rec: KeyRecord): (kp: KeyPair)
    ensures kp.xpriv.None?
  {
    KeyPair(rec.xpub, None, rec.fingerprint, rec.network)
  }

  /** A key pair survives a write and a read except for its private key. */
  lemma RecordRoundTrip(kp: KeyPair)
    ensures FromRecord(ToRecord(kp)) == kp.(xpriv := None)
    ensures ToRecord(FromRecord(ToRecord(kp))) == ToRecord(kp)
  {
  }

  /** The content of a file in the key directory: a serialised record, or
      text that does not deserialise as one (with the parser's message). */
  datatype FileContent = KeyJson(record: KeyRecord) | Malformed(reason: string)

  type KeyDir = map<string, FileContent>

  datatype DirEntry = DirEntry(name: string, content: FileContent)

  /** The file name of slot `index`: `key_{index}.json`. */
  function SlotName(index: U32): string {
    "key_" + NatToString(index) + ".json"
  }

  lemma SlotNameInjective(i: U32, j: U32)
    requires SlotName(i) == SlotName(j)
    ensures i == j
  {
    var a := NatToString(i);
    var b := NatToString(j);
    assert |a| == |b|;
    assert a == SlotName(i)[4..4 + |a|];
    assert b == SlotName(j)[4..4 + |b|];
    NatToStringInjective(i, j);
  }

  /** Index of the last occurrence of `c` in `s`. */
  function LastIndexOf(s: string, c: char): (r: Option<nat>)
    ensures r.None? ==> c !in s
    ensures r.Some? ==> r.value < |s| && s[r.value] == c && c !in s[r.value + 1..]
    decreases |s|
  {
    if |s| == 0 then None
    else if s[|s| - 1] == c then Some(|s| - 1)
    else
      var r := LastIndexOf(s[..|s| - 1], c);
      assert s == s[..|s| - 1] + [s[|s| - 1]];
      r
  }

  /** `Path::extension` of a file name: the text after the last '.', unless
      there is no '.', the only '.' is the leading one, or the name is "..". */
  function Extension(name: string): (r: Option<string>)
    ensures r.Some? ==> && |r.value| + 1 < |name|
                        && name[|name| - |r.value| - 1] == '.'
                        && r.value == name[|name| - |r.value|..]
                        && '.' !in r.value
    ensures r.Some? <==> name != ".." && |name| > 0 && '.' in name[1..]
    ensures name == ".." ==> r.None?
  {
    if name == ".." then None
    else match LastIndexOf(name, '.')
      case None => None
      case Some(i) => if i == 0 then None else Some(name[i + 1..])
  }

  lemma {:induction false} LastIndexOfAppend(a: string, c: char, t: string)
    requires c !in t
    ensures LastIndexOf(a + [c] + t, c) == Some(|a|)
    decreases |t|
  {
    var s := a + [c] + t;
    if |t| > 0 {
      assert s[..|s| - 1] == a + [c] + t[..|t| - 1];
      LastIndexOfAppend(a, c, t[..|t| - 1]);
    }
  }

  predicate IsJsonFile(name: string) {
    Extension(name) == Some("json")
  }

  lemma SlotNameIsJson(index: U32)
    ensures IsJsonFile(SlotName(index))
  {
    var stem := "key_" + NatToString(index);
    assert SlotName(index) == stem + ['.'] + "json";
    LastIndexOfAppend(stem, '.', "json");
  }

  datatype KeyGenerator = KeyGenerator(network: Network, storagePath: string)

  /** `KeyGenerator::new`: the storage directory lies under the home
      directory, which must be known. */
  function NewKeyGenerator(network: Network, home: Option<string>): (r: Result<KeyGenerator>)
    ensures r.Ok? <==> home.Some?
    ensures r.Ok? ==> r.value.network == network
  {
    match home
    case None => Err("Could not find home directory")
    case Some(h) => Ok(KeyGenerator(network, h + "/.bitcoin-multisig/keys"))
  }

  /** `save_keypair`: writes slot `index` and nothing else, replacing any
      earlier record there. */
  function SaveKeypair(dir: KeyDir, kp: KeyPair, index: U32): (r: KeyDir)
    ensures r.Keys == dir.Keys + {SlotName(index)}
    ensures r[SlotName(index)] == KeyJson(ToRecord(kp))
    ensures forall name :: name in dir && name != SlotName(index) ==> r[name] == dir[name]
  {
    dir[SlotName(index) := KeyJson(ToRecord(kp))]
  }

  /** Saving at one slot leaves every other slot as it was. */
  lemma SaveKeypairOtherSlots(dir: KeyDir, kp: KeyPair, i: U32, j: U32)
    requires i != j
    ensures SlotName(j) in SaveKeypair(dir, kp, i) <==> SlotName(j) in dir
    ensures SlotName(j) in dir ==> SaveKeypair(dir, kp, i)[SlotName(j)] == dir[SlotName(j)]
  {
    if SlotName(i) == SlotName(j) {
      SlotNameInjective(i, j);
    }
  }

  /** The outcome of an operation on the key directory: its result and the
      directory afterwards. */
  datatype Generated = Generated(result: Result<KeyPair>, dir: KeyDir)

  /** `generate_key`: master key from the seed, account path by network,
      derivation, then the key pair is saved at `index` and returned. Any
      failure leaves the directory untouched. */
  function GenerateKey(lib: Library, g: KeyGenerator, seed: Bytes32, index: U32, dir: KeyDir): (out: Generated)
    ensures out.result.Err? ==> out.dir == dir
    ensures g.network == Signet ==> out.result.Err?
    ensures lib.newMaster(g.network, seed).Err? ==> out.result == Err(lib.newMaster(g.network, seed).error)
    ensures g.network == Signet && lib.newMaster(g.network, seed).Ok? ==> out.result == Err("Unsupported network")
    ensures out.result.Ok? ==>
              && out.result.value.xpriv.Some?
              && out.result.value.network == g.network
              && out.dir == SaveKeypair(dir, out.result.value, index)
    ensures out.result.Ok? <==>
              && lib.newMaster(g.network, seed).Ok?
              && AccountPath(g.network).Ok?
              && lib.derivePriv(lib.newMaster(g.network, seed).value, AccountPath(g.network).value).Ok?
    ensures out.result.Ok? ==>
              var derived := lib.derivePriv(lib.newMaster(g.network, seed).value, AccountPath(g.network).value).value;
              out.result.value == KeyPair(lib.xpubOf(derived), Some(lib.xprivText(derived)), lib.fingerprint(derived), g.network)
  {
    match lib.newMaster(g.network, seed)
    case Err(e) => Generated(Err(e), dir)
    case Ok(xpriv) =>
      match AccountPath(g.network)
      case Err(e) => Generated(Err(e), dir)
      case Ok(path) =>
        match lib.derivePriv(xpriv, path)
        case Err(e) => Generated(Err(e), dir)
        case Ok(derived) =>
          var keypair := KeyPair(lib.xpubOf(derived), Some(lib.xprivText(derived)), lib.fingerprint(derived), g.network);
          Generated(Ok(keypair), SaveKeypair(dir, keypair, index))
  }

  /** The key pairs held by the `json` entries, in enumeration order; none
      of them carries a private key. */
  function JsonRecords(entries: seq<DirEntry>): (records: seq<KeyPair>)
    ensures forall k :: 0 <= k < |records| ==> records[k].xpriv.None?
    decreases |entries|
  {
    if |entries| == 0 then []
    else
      var rest := JsonRecords(entries[1..]);
      if IsJsonFile(entries[0].name) && entries[0].content.KeyJson?
      then [FromRecord(entries[0].content.record)] + rest
      else rest
  }

  /** `JsonRecords` collects the record of every `json` entry that holds one. */
  lemma {:induction false} JsonRecordsComplete(entries: seq<DirEntry>, i: nat)
    requires i < |entries| && IsJsonFile(entries[i].name) && entries[i].content.KeyJson?
    ensures FromRecord(entries[i].content.record) in JsonRecords(entries)
    decreases i
  {
    if i > 0 {
      assert entries[i] == entries[1..][i - 1];
      JsonRecordsComplete(entries[1..], i - 1);
    }
  }

  /** Every record `JsonRecords` collects comes from a `json` entry. */
  lemma {:induction false} JsonRecordsSound(entries: seq<DirEntry>, kp: KeyPair) returns (i: nat)
    requires kp in JsonRecords(entries)
    ensures i < |entries| && IsJsonFile(entries[i].name) && entries[i].content.KeyJson?
    ensures kp == FromRecord(entries[i].content.record)
    decreases |entries|
  {
    var head := IsJsonFile(entries[0].name) && entries[0].content.KeyJson?;
    if head && kp == FromRecord(entries[0].content.record) {
      i := 0;
    } else {
      assert kp in JsonRecords(entries[1..]);
      var j := JsonRecordsSound(entries[1..], kp);
      assert entries[1..][j] == entries[j + 1];
      i := j + 1;
    }
  }

  /** `list_keys`: reads the entries in the order given, keeps those whose
      extension is "json", and fails on the first one that does not hold a
      key record. The listing is the json records in enumeration order and
      holds no private key. */
  function ListKeys(entries: seq<DirEntry>): (r: Result<seq<KeyPair>>)
    ensures r.Ok? <==> forall i :: 0 <= i < |entries| && IsJsonFile(entries[i].name) ==> entries[i].content.KeyJson?
    ensures r.Ok? ==> r.value == JsonRecords(entries)
    ensures r.Ok? ==> forall k :: 0 <= k < |r.value| ==> r.value[k].xpriv.None?
    decreases |entries|
  {
    if |entries| == 0 then Ok([])
    else
      var entry := entries[0];
      if IsJsonFile(entry.name) then
        match entry.content
        case Malformed(reason) => Err(reason)
        case KeyJson(record) =>
          var rest :- ListKeys(entries[1..]);
          Ok([FromRecord(record)] + rest)
      else
        ListKeys(entries[1..])
  }

  /** A successful listing holds the record of every `json` entry, and
      nothing else. */
  lemma ListKeysMembers(entries: seq<DirEntry>)
    requires ListKeys(entries).Ok?
    ensures forall i :: 0 <= i < |entries| && IsJsonFile(entries[i].name) ==>
              entries[i].content.KeyJson? && FromRecord(entries[i].content.record) in ListKeys(entries).value
    ensures forall kp :: kp in ListKeys(entries).value ==>
              exists i :: 0 <= i < |entries| && IsJsonFile(entries[i].name)
                          && entries[i].content.KeyJson? && kp == FromRecord(entries[i].content.record)
  {
    forall i | 0 <= i < |entries| && IsJsonFile(entries[i].name)
      ensures entries[i].content.KeyJson? && FromRecord(entries[i].content.record) in ListKeys(entries).value
    {
      JsonRecordsComplete(entries, i);
    }
    forall kp | kp in ListKeys(entries).value
      ensures exists i :: 0 <= i < |entries| && IsJsonFile(entries[i].name)
                          && entries[i].content.KeyJson? && kp == FromRecord(entries[i].content.record)
    {
      var i := JsonRecordsSound(entries, kp);
    }
  }

  /** `entries` lists each file of `dir` with its content. */
  ghost predicate Enumerates(entries: seq<DirEntry>, dir: KeyDir) {
    && (forall i :: 0 <= i < |entries| ==> entries[i].name in dir && dir[entries[i].name] == entries[i].content)
    && (forall name :: name in dir ==> exists i :: 0 <= i < |entries| && entries[i].name == name)
  }

  /** After a successful `generate_key` at slot `index`, listing the directory
      yields the new key pair, without its private key. */
  lemma GeneratedKeyIsListed(lib: Library, g: KeyGenerator, seed: Bytes32, index: U32, dir: KeyDir, entries: seq<DirEntry>)
    requires GenerateKey(lib, g, seed, index, dir).result.Ok?
    requires Enumerates(entries, GenerateKey(lib, g, seed, index, dir).dir)
    requires ListKeys(entries).Ok?
    ensures GenerateKey(lib, g, seed, index, dir).result.value.(xpriv := None) in ListKeys(entries).value
  {
    var out := GenerateKey(lib, g, seed, index, dir);
    var kp := out.result.value;
    SlotNameIsJson(index);
    ListKeysMembers(entries);
    var i :| 0 <= i < |entries| && entries[i].name == SlotName(index);
    assert entries[i].content == KeyJson(ToRecord(kp));
    RecordRoundTrip(kp);
  }
}

=== FILE: networks.dfy ===
/** The `Network` enumeration and the two network-name parsers of the source:
    `get_network_from_string` (src/utilities.rs) and the match repeated in the
    three subcommands of src/main.rs. */
module Networks {
  import opened Results
  import opened Text

  datatype Network = Bitcoin | Testnet | Signet | Regtest

  /** The lower-case name `get_network_from_string` accepts for each network. */
  function LowerName(n: Network): string {
    match n
    case Bitcoin => "bitcoin"
    case Testnet => "testnet"
    case Signet => "signet"
    case Regtest => "regtest"
  }

  /** `get_network_from_string`: the lower-cased argument is matched against
      the four names; anything else is an "Unsupported network" error quoting
      the argument as given. */
  function NetworkFromString(name: string): (r: Result<Network>)
    ensures r.Ok? <==> ToLower(name) in {"bitcoin", "testnet", "signet", "regtest"}
    ensures r.Ok? ==> LowerName(r.value) == ToLower(name)
    ensures r.Err? ==> r.error == "Unsupported network: " + name
  {
    match ToLower(name)
    case "bitcoin" => Ok(Bitcoin)
    case "testnet" => Ok(Testnet)
    case "signet" => Ok(Signet)
    case "regtest" => Ok(Regtest)
    case _ => Err("Unsupported network: " + name)
  }

  /** Every network is reachable, under every casing of its name. */
  lemma AnyCasingAccepted(name: string, n: Network)
    requires ToLower(name) == LowerName(n)
    ensures NetworkFromString(name) == Ok(n)
  {
  }

  /** Matching ignores case: two names that lower-case alike parse alike. */
  lemma NetworkFromStringIgnoresCase(a: string, b: string)
    requires ToLower(a) == ToLower(b)
    ensures NetworkFromString(a).Ok? <==> NetworkFromString(b).Ok?
    ensures NetworkFromString(a).Ok? ==> NetworkFromString(a).value == NetworkFromString(b).value
  {
  }

  /** Distinct names (up to case) give distinct networks. */
  lemma NetworkFromStringInjective(a: string, b: string)
    requires NetworkFromString(a).Ok? && NetworkFromString(b).Ok?
    requires NetworkFromString(a).value == NetworkFromString(b).value
    ensures ToLower(a) == ToLower(b)
  {
  }

  /** The name every subcommand of src/main.rs accepts for a network; Signet
      has none. */
  function CliName(n: Network): Option<string> {
    match n
    case Bitcoin => Some("mainnet")
    case Testnet => Some("testnet")
    case Signet => None
    case Regtest => Some("regtest")
  }

  /** The network match of src/main.rs: case-sensitive, three names, and
      "Invalid network" for everything else. */
  function ParseCliNetwork(name: string): (r: Result<Network>)
    ensures r.Ok? <==> name in {"mainnet", "testnet", "regtest"}
    ensures r.Ok? ==> CliName(r.value) == Some(name)
    ensures r.Err? ==> r.error == "Invalid network"
  {
    match name
    case "mainnet" => Ok(Bitcoin)
    case "testnet" => Ok(Testnet)
    case "regtest" => Ok(Regtest)
    case _ => Err("Invalid network")
  }

  /** The subcommands can never select Signet. */
  lemma CliNeverSignet(name: string)
    ensures ParseCliNetwork(name) != Ok(Signet)
  {
  }

  /** The command-line parser is case-sensitive: any name with an upper-case
      ASCII letter is rejected, e.g. "Mainnet" or "TESTNET". */
  lemma CliRejectsUpperCase(name: string)
    requires ToLower(name) != name
    ensures ParseCliNetwork(name) == Err("Invalid network")
  {
  }

  /** Where the two parsers overlap: both accept a string exactly when it is
      "testnet" or "regtest", and then they agree. "mainnet" is accepted only
      by the command line; "bitcoin", "signet" and every other casing only by
      `get_network_from_string`. */
  lemma ParsersOverlap(name: string)
    ensures (ParseCliNetwork(name).Ok? && NetworkFromString(name).Ok?) <==> name in {"testnet", "regtest"}
    ensures ParseCliNetwork(name).Ok? && NetworkFromString(name).Ok? ==>
              ParseCliNetwork(name).value == NetworkFromString(name).value
  {
    if name == "mainnet" {
      assert ToLower(name)[0] == 'm';
    } else if name == "testnet" || name == "regtest" {
      assert ToLower(name) == name;
    }
  }

  lemma ParsersDisagree()
    ensures ParseCliNetwork("mainnet") == Ok(Bitcoin)
    ensures NetworkFromString("mainnet").Err?
    ensures ParseCliNetwork("bitcoin").Err? && NetworkFromString("bitcoin") == Ok(Bitcoin)
    ensures ParseCliNetwork("signet").Err? && NetworkFromString("signet") == Ok(Signet)
    ensures ParseCliNetwork("Testnet").Err? && NetworkFromString("Testnet") == Ok(Testnet)
  {
    assert ToLower("mainnet")[0] == 'm';
    assert ToLower("bitcoin") == "bitcoin";
    assert ToLower("signet") == "signet";
    assert ToLower("Testnet") == "testnet";
  }
}

=== FILE: results.dfy ===
/** Failure-compatible result types shared by every module.

    The source returns `anyhow::Result<T>` everywhere; an error there is a
    message, so `Err` carries the message text.  */
module Results {

  datatype Option<+T> = None | Some(value: T)

  datatype Result<+T> = Ok(value: T) | Err(error: string) {

    predicate IsFailure() {
      Err?
    }

    function PropagateFailure<U>(): Result<U>
      requires Err?
    {
      Err(error)
    }

    function Extract(): T
      requires Ok?
    {
      value
    }
  }
}

=== FILE: segwit.dfy ===
/** Segregated-witness addresses (section "Segwit address format" of BIP 173):
    `hrp ‖ "1" ‖ data`, where the data part is the witness version, the
    witness program regrouped into 5-bit values, and a six-value checksum,
    all written with the bech32 character set. The checksum is a library
    computation and is a parameter here. */
module Segwit {
  import opened Bytes
  import opened Text
  import opened Networks

  type U5 = n: int | 0 <= n < 32

  type Checksum = s: seq<U5> | |s| == 6 witness [0, 0, 0, 0, 0, 0]

  const CHARSET: string := "qpzry9x8gf2tvdw0s3jn54khce6mua7l"

  /** The human-readable part rust-bitcoin uses for each network. */
  function Hrp(n: Network): string {
    match n
    case Bitcoin => "bc"
    case Testnet => "tb"
    case Signet => "tb"
    case Regtest => "bcrt"
  }

  /** The eight bits of a byte, most significant first. */
  function ByteBits(b: Byte): (bits: seq<bool>)
    ensures |bits| == 8
  {
    [b / 128 % 2 == 1, b / 64 % 2 == 1, b / 32 % 2 == 1, b / 16 % 2 == 1,
     b / 8 % 2 == 1, b / 4 % 2 == 1, b / 2 % 2 == 1, b % 2 == 1]
  }

  function Bits(s: seq<Byte>): (bits: seq<bool>)
    ensures |bits| == 8 * |s|
    decreases |s|
  {
    if |s| == 0 then [] else ByteBits(s[0]) + Bits(s[1..])
  }

  function GroupValue(bits: seq<bool>): U5
    requires |bits| == 5
  {
    (if bits[0] then 16 else 0) + (if bits[1] then 8 else 0) + (if bits[2] then 4 else 0)
    + (if bits[3] then 2 else 0) + (if bits[4] then 1 else 0)
  }

  /** Cuts a bit string into 5-bit values, padding the last one with zero
      bits (`convertbits(data, 8, 5, pad = true)`). */
  function Regroup(bits: seq<bool>): (groups: seq<U5>)
    ensures |groups| == (|bits| + 4) / 5
    decreases |bits|
  {
    if |bits| == 0 then []
    else if |bits| < 5 then [GroupValue(bits + seq(5 - |bits|, i => false))]
    else [GroupValue(bits[..5])] + Regroup(bits[5..])
  }

  /** The characters of a sequence of 5-bit values. */
  function Render(data: seq<U5>): (s: string)
    ensures |s| == |data|
    ensures forall i :: 0 <= i < |data| ==> s[i] == CHARSET[data[i]]
  {
    seq(|data|, i requires 0 <= i < |data| => CHARSET[data[i]])
  }

  /** The segwit address string of witness program `program` with version
      `version`: it starts with the hrp, the separator '1' and the character
      of the version, and a program of n bytes adds ceil(8n/5) + 6 characters. */
  function EncodeSegwit(checksum: (string, seq<U5>) -> Checksum, hrp: string, version: U5, program: seq<Byte>): (s: string)
    ensures StartsWith(s, hrp + "1" + [CHARSET[version]])
    ensures |s| == |hrp| + 2 + (8 * |program| + 4) / 5 + 6
  {
    var data := [version] + Regroup(Bits(program));
    var s := hrp + "1" + Render(data + checksum(hrp, data));
    assert s[..|hrp| + 2] == hrp + "1" + [CHARSET[version]];
    s
  }

  /** A witness address: network, witness version and witness program. */
  datatype Address = Address(network: Network, version: U5, program: seq<Byte>)

  /** `Address::to_string`. */
  function AddressString(checksum: (string, seq<U5>) -> Checksum, a: Address): string {
    EncodeSegwit(checksum, Hrp(a.network), a.version, a.program)
  }

  /** A version-0 address over a 32-byte program (P2WSH) is the hrp, "1q",
      and 58 more characters. */
  lemma P2wshAddressShape(checksum: (string, seq<U5>) -> Checksum, a: Address)
    requires a.version == 0 && |a.program| == 32
    ensures StartsWith(AddressString(checksum, a), Hrp(a.network) + "1q")
    ensures |AddressString(checksum, a)| == |Hrp(a.network)| + 60
  {
    assert CHARSET[0] == 'q';
    assert Hrp(a.network) + "1" + [CHARSET[0]] == Hrp(a.network) + "1q";
  }
}

=== FILE: text.dfy ===
/** String helpers with the semantics of the Rust standard library calls the
    source uses: `format!("{}", n)` for a `usize`/`u32`, `str::split(char)`,
    `slice::join`, `str::trim` and `str::to_lowercase`. */
module Text {

  predicate IsDigit(c: char) {
    '0' <= c <= '9'
  }

  predicate AllDigits(s: string) {
    forall i :: 0 <= i < |s| ==> IsDigit(s[i])
  }

  function DigitChar(d: nat): (c: char)
    requires d < 10
    ensures IsDigit(c)
  {
    ('0' as int + d) as char
  }

  function DigitValue(c: char): nat
    requires IsDigit(c)
  {
    c as int - '0' as int
  }

  /** Decimal rendering of a natural number, without leading zeros. */
  function NatToString(n: nat): (s: string)
    ensures |s| > 0 && AllDigits(s)
    ensures n == 0 <==> s == "0"
    ensures n > 0 ==> s[0] != '0'
    decreases n
  {
    if n < 10 then [DigitChar(n)] else NatToString(n / 10) + [DigitChar(n % 10)]
  }

  /** The number a string of decimal digits denotes. */
  function DigitsValue(s: string): nat
    requires AllDigits(s)
    decreases |s|
  {
    if |s| == 0 then 0 else 10 * DigitsValue(s[..|s| - 1]) + DigitValue(s[|s| - 1])
  }

  lemma {:induction false} NatToStringRoundTrip(n: nat)
    ensures DigitsValue(NatToString(n)) == n
    decreases n
  {
    if n >= 10 {
      var s := NatToString(n);
      assert s[..|s| - 1] == NatToString(n / 10);
      NatToStringRoundTrip(n / 10);
    }
  }

  lemma NatToStringInjective(m: nat, n: nat)
    requires NatToString(m) == NatToString(n)
    ensures m == n
  {
    NatToStringRoundTrip(m);
    NatToStringRoundTrip(n);
  }

  predicate StartsWith(s: string, prefix: string) {
    |prefix| <= |s| && s[..|prefix|] == prefix
  }

  /** Number of occurrences of `c` in `s`. */
  function Count(s: string, c: char): nat
    decreases |s|
  {
    if |s| == 0 then 0 else (if s[0] == c then 1 else 0) + Count(s[1..], c)
  }

  /** `parts.join(sep)`. */
  function Join(parts: seq<string>, sep: char): string
    decreases |parts|
  {
    if |parts| == 0 then ""
    else if |parts| == 1 then parts[0]
    else parts[0] + [sep] + Join(parts[1..], sep)
  }

  /** `s.split(sep)`: the maximal separator-free pieces, in order; the empty
      string splits into one empty piece. Joining the pieces gives `s` back. */
  function Split(s: string, sep: char): (parts: seq<string>)
    ensures |parts| == Count(s, sep) + 1
    ensures forall i :: 0 <= i < |parts| ==> sep !in parts[i]
    ensures Join(parts, sep) == s
    decreases |s|
  {
    if |s| == 0 then [""]
    else
      var rest := Split(s[1..], sep);
      if s[0] == sep then
        assert s == [sep] + s[1..];
        [""] + rest
      else
        var parts := [[s[0]] + rest[0]] + rest[1..];
        assert parts[1..] == rest[1..];
        assert s == [s[0]] + s[1..];
        parts
  }

  lemma {:induction false} SplitNoSeparator(a: string, sep: char)
    requires sep !in a
    ensures Split(a, sep) == [a]
    decreases |a|
  {
    if |a| > 0 {
      SplitNoSeparator(a[1..], sep);
      assert a == [a[0]] + a[1..];
    }
  }

  lemma {:induction false} SplitAtFirstSeparator(a: string, sep: char, t: string)
    requires sep !in a
    ensures Split(a + [sep] + t, sep) == [a] + Split(t, sep)
    decreases |a|
  {
    var s := a + [sep] + t;
    if |a| == 0 {
      assert s[1..] == t;
    } else {
      assert s[1..] == a[1..] + [sep] + t;
      SplitAtFirstSeparator(a[1..], sep, t);
      assert [s[0]] + a[1..] == a;
    }
  }

  /** Splitting undoes joining when no piece holds the separator. */
  lemma {:induction false} SplitJoin(parts: seq<string>, sep: char)
    requires |parts| > 0
    requires forall i :: 0 <= i < |parts| ==> sep !in parts[i]
    ensures Split(Join(parts, sep), sep) == parts
    decreases |parts|
  {
    if |parts| == 1 {
      SplitNoSeparator(parts[0], sep);
    } else {
      SplitJoin(parts[1..], sep);
      SplitAtFirstSeparator(parts[0], sep, Join(parts[1..], sep));
      assert parts == [parts[0]] + parts[1..];
    }
  }

  /** The Unicode `White_Space` characters, which `str::trim` removes. */
  predicate IsWhitespace(c: char) {
    || c == ' '
    || ('\t' <= c <= '\r')
    || c == '\U{0085}'
    || c == '\U{00A0}'
    || c == '\U{1680}'
    || ('\U{2000}' <= c <= '\U{200A}')
    || c == '\U{2028}'
    || c == '\U{2029}'
    || c == '\U{202F}'
    || c == '\U{205F}'
    || c == '\U{3000}'
  }

  /** `s.trim_start()`: drops the longest all-whitespace prefix. */
  function TrimStart(s: string): (r: string)
    ensures |r| <= |s| && r == s[|s| - |r|..]
    ensures forall i :: 0 <= i < |s| - |r| ==> IsWhitespace(s[i])
    decreases |s|
  {
    if |s| > 0 && IsWhitespace(s[0]) then TrimStart(s[1..]) else s
  }

  /** `trim_start` stops at the first non-whitespace character. */
  lemma {:induction false} TrimStartStops(s: string)
    ensures |TrimStart(s)| > 0 ==> !IsWhitespace(TrimStart(s)[0])
    decreases |s|
  {
    if |s| > 0 && IsWhitespace(s[0]) {
      TrimStartStops(s[1..]);
    }
  }

  /** `s.trim_end()`: drops the longest all-whitespace suffix. */
  function TrimEnd(s: string): (r: string)
    ensures |r| <= |s| && r == s[..|r|]
    ensures forall i :: |r| <= i < |s| ==> IsWhitespace(s[i])
    decreases |s|
  {
    if |s| > 0 && IsWhitespace(s[|s| - 1]) then TrimEnd(s[..|s| - 1]) else s
  }

  /** `trim_end` stops at the last non-whitespace character. */
  lemma {:induction false} TrimEndStops(s: string)
    ensures |TrimEnd(s)| > 0 ==> !IsWhitespace(TrimEnd(s)[|TrimEnd(s)| - 1])
    decreases |s|
  {
    if |s| > 0 && IsWhitespace(s[|s| - 1]) {
      TrimEndStops(s[..|s| - 1]);
    }
  }

  /** `s.trim()`. */
  function Trim(s: string): string {
    TrimEnd(TrimStart(s))
  }

  /** The trimmed string is the infix of `s` that starts where `trim_start`
      stopped. */
  lemma TrimIsInfix(s: string)
    ensures |s| - |TrimStart(s)| + |Trim(s)| <= |s|
    ensures Trim(s) == s[|s| - |TrimStart(s)|..|s| - |TrimStart(s)| + |Trim(s)|]
  {
    var t := TrimStart(s);
    var i := |s| - |t|;
    var r := TrimEnd(t);
    assert t == s[i..];
    assert r == t[..|r|];
    assert t[..|r|] == s[i..i + |r|];
  }

  /** Everything `trim` removes is whitespace: the characters before the
      trimmed infix and the characters after it. */
  lemma TrimRemovesWhitespace(s: string)
    ensures forall j :: 0 <= j < |s| - |TrimStart(s)| ==> IsWhitespace(s[j])
    ensures forall j :: |s| - |TrimStart(s)| + |Trim(s)| <= j < |s| ==> IsWhitespace(s[j])
  {
    var t := TrimStart(s);
    var i := |s| - |t|;
    var r := TrimEnd(t);
    assert t == s[i..];
    forall j | i + |r| <= j < |s|
      ensures IsWhitespace(s[j])
    {
      assert s[j] == t[j - i];
      assert |r| <= j - i < |t|;
    }
  }

  /** The trimmed string neither starts nor ends with whitespace. */
  lemma TrimStops(s: string)
    ensures |Trim(s)| > 0 ==> !IsWhitespace(Trim(s)[0])
    ensures |Trim(s)| > 0 ==> !IsWhitespace(Trim(s)[|Trim(s)| - 1])
  {
    var t := TrimStart(s);
    var r := TrimEnd(t);
    assert Trim(s) == r;
    TrimEndStops(t);
    if |r| > 0 {
      TrimStartStops(s);
      assert r[0] == t[0];
    }
  }

  function ToLowerChar(c: char): char {
    if 'A' <= c <= 'Z' then (c as int + 32) as char else c
  }

  /** `to_lowercase`, restricted to ASCII letters; see README for why this is
      enough for the network names. */
  function ToLower(s: string): string {
    seq(|s|, i requires 0 <= i < |s| => ToLowerChar(s[i]))
  }
}

=== FILE: wallet.dfy ===
/** The multisig wallet (src/wallet.rs): an M-of-N `wsh(multi(...))`
    descriptor (BIP 380, 381, 383) over the caller's extended public keys, in
    the caller's order, and the record persisted for it. */
module Wallet {
  import opened Results
  import opened Text
  import opened Networks
  import opened Bip32

  /** The descriptor library: the error, if any, of parsing a descriptor key
      and a descriptor, and the descriptor checksum. A parsed key or
      descriptor renders back to the text it was parsed from. */
  datatype DescriptorLibrary = DescriptorLibrary(
    keyError: string -> Option<string>,
    descriptorError: string -> Option<string>,
    checksum: string -> string)

  datatype MultisigWallet = MultisigWallet(descriptor: string, network: Network, walletPath: string)

  /** The member key of one xpub: external chain, every address index. */
  function KeyString(x: Xpub): string {
    x + "/0/*"
  }

  function KeyStrings(xpubs: seq<Xpub>): seq<string> {
    seq(|xpubs|, i requires 0 <= i < |xpubs| => KeyString(xpubs[i]))
  }

  /** Index `i` is the first xpub whose key string the library rejects. */
  predicate FirstRejected(lib: DescriptorLibrary, xpubs: seq<Xpub>, i: int) {
    && 0 <= i < |xpubs|
    && lib.keyError(KeyString(xpubs[i])).Some?
    && forall j :: 0 <= j < i ==> lib.keyError(KeyString(xpubs[j])).None?
  }

  /** The loop of `MultisigWallet::new` over the xpubs: each key string is
      parsed in order and the first failure aborts. */
  function DescriptorKeys(lib: DescriptorLibrary, xpubs: seq<Xpub>): (r: Result<seq<string>>)
    ensures r.Ok? <==> forall i :: 0 <= i < |xpubs| ==> lib.keyError(KeyString(xpubs[i])).None?
    ensures r.Ok? ==> r.value == KeyStrings(xpubs)
    ensures r.Err? ==> exists i :: FirstRejected(lib, xpubs, i)
                                   && r.error == "Failed to create descriptor key: " + lib.keyError(KeyString(xpubs[i])).value
    decreases |xpubs|
  {
    if |xpubs| == 0 then Ok([])
    else
      match lib.keyError(KeyString(xpubs[0]))
      case Some(e) =>
        assert FirstRejected(lib, xpubs, 0);
        Err("Failed to create descriptor key: " + e)
      case None =>
        var rest :- (
          var r := DescriptorKeys(lib, xpubs[1..]);
          if r.Err? then
            var i :| FirstRejected(lib, xpubs[1..], i);
            assert FirstRejected(lib, xpubs, i + 1);
            r
          else r);
        assert forall i :: 0 < i < |xpubs| ==> xpubs[i] == xpubs[1..][i - 1];
        Ok([KeyString(xpubs[0])] + rest)
  }

  /** The descriptor text before its checksum. */
  function PolicyString(threshold: nat, keys: seq<string>): string {
    "wsh(multi(" + NatToString(threshold) + "," + Join(keys, ',') + "))"
  }

  /** Reads threshold and member keys back out of a policy string. */
  function ParsePolicy(s: string): Option<(nat, seq<string>)> {
    if |s| < 12 || s[..10] != "wsh(multi(" || s[|s| - 2..] != "))" then None
    else
      var parts := Split(s[10..|s| - 2], ',');
      if |parts| < 2 || |parts[0]| == 0 || !AllDigits(parts[0]) then None
      else Some((DigitsValue(parts[0]), if parts[1..] == [""] then [] else parts[1..]))
  }

  /** A policy string re-parses to the same threshold and the same keys in
      the same order, provided no key is empty or holds a comma. */
  lemma ParsePolicyString(threshold: nat, keys: seq<string>)
    requires forall i :: 0 <= i < |keys| ==> |keys[i]| > 0 && ',' !in keys[i]
    ensures ParsePolicy(PolicyString(threshold, keys)) == Some((threshold, keys))
  {
    var digits := NatToString(threshold);
    var s := PolicyString(threshold, keys);
    assert s[..10] == "wsh(multi(";
    assert s[|s| - 2..] == "))";
    assert s[10..|s| - 2] == digits + [','] + Join(keys, ',');
    assert ',' !in digits;
    SplitAtFirstSeparator(digits, ',', Join(keys, ','));
    var parts := Split(s[10..|s| - 2], ',');
    assert parts[0] == digits && parts[1..] == Split(Join(keys, ','), ',');
    NatToStringRoundTrip(threshold);
    if |keys| > 0 {
      SplitJoin(keys, ',');
      assert parts[1..] != [""] by {
        assert |parts[1..][0]| > 0;
      }
    }
  }

  lemma KeyStringsWellFormed(xpubs: seq<Xpub>)
    ensures forall i :: 0 <= i < |xpubs| ==> |KeyStrings(xpubs)[i]| > 0 && ',' !in KeyStrings(xpubs)[i] && '#' !in KeyStrings(xpubs)[i]
  {
    forall i | 0 <= i < |xpubs|
      ensures ',' !in KeyStrings(xpubs)[i] && '#' !in KeyStrings(xpubs)[i]
    {
      var x := xpubs[i];
      assert KeyStrings(xpubs)[i] == x + "/0/*";
    }
  }

  lemma KeyStringsInjective(xs: seq<Xpub>, ys: seq<Xpub>)
    requires KeyStrings(xs) == KeyStrings(ys)
    ensures xs == ys
  {
    assert |xs| == |KeyStrings(xs)| == |ys|;
    forall i | 0 <= i < |xs|
      ensures xs[i] == ys[i]
    {
      assert KeyStrings(xs)[i] == KeyStrings(ys)[i];
      assert xs[i] == KeyString(xs[i])[..|KeyString(xs[i])| - 4];
      assert ys[i] == KeyString(ys[i])[..|KeyString(ys[i])| - 4];
    }
  }

  lemma {:induction false} JoinAvoids(parts: seq<string>, sep: char, c: char)
    requires c != sep
    requires forall i :: 0 <= i < |parts| ==> c !in parts[i]
    ensures c !in Join(parts, sep)
    decreases |parts|
  {
    if |parts| > 1 {
      JoinAvoids(parts[1..], sep, c);
    }
  }

  lemma PolicyStringHasNoHash(threshold: nat, xpubs: seq<Xpub>)
    ensures '#' !in PolicyString(threshold, KeyStrings(xpubs))
  {
    KeyStringsWellFormed(xpubs);
    JoinAvoids(KeyStrings(xpubs), ',', '#');
    assert '#' !in NatToString(threshold);
  }

  /** The one wallet file under the home directory; every wallet is saved there. */
  function WalletPath(home: string): string {
    home + "/.bitcoin-multisig/wallet.json"
  }

  /** `MultisigWallet::new`. The threshold is checked before any string is
      built; then every key string is parsed, the policy string is assembled
      and parsed, and its checksum is appended. The network is stored as
      given and does not enter the descriptor. */
  function NewWallet(lib: DescriptorLibrary, xpubs: seq<Xpub>, threshold: nat, network: Network, home: Option<string>): (r: Result<MultisigWallet>)
    ensures threshold > |xpubs| ==> r == Err("Threshold cannot be greater than number of keys")
    ensures r.Ok? <==>
              && threshold <= |xpubs|
              && (forall i :: 0 <= i < |xpubs| ==> lib.keyError(KeyString(xpubs[i])).None?)
              && lib.descriptorError(PolicyString(threshold, KeyStrings(xpubs))).None?
              && home.Some?
    ensures r.Ok? ==> r.value.network == network && r.value.walletPath == WalletPath(home.value)
    ensures r.Ok? ==> var policy := PolicyString(threshold, KeyStrings(xpubs));
                      r.value.descriptor == policy + "#" + lib.checksum(policy)
  {
    if threshold > |xpubs| then Err("Threshold cannot be greater than number of keys")
    else
      var keys :- DescriptorKeys(lib, xpubs);
      var descStr := PolicyString(threshold, keys);
      match lib.descriptorError(descStr)
      case Some(e) => Err("Failed to parse descriptor: " + e)
      case None =>
        var descriptor := descStr + "#" + lib.checksum(descStr);
        match home
        case None => Err("Could not find home directory")
        case Some(h) => Ok(MultisigWallet(descriptor, network, WalletPath(h)))
  }

  /** The text of a descriptor before its checksum separator '#'. */
  function PolicyPart(descriptor: string): string
    decreases |descriptor|
  {
    if |descriptor| == 0 || descriptor[0] == '#' then "" else [descriptor[0]] + PolicyPart(descriptor[1..])
  }

  lemma {:induction false} PolicyPartOfDescriptor(policy: string, checksum: string)
    requires '#' !in policy
    ensures PolicyPart(policy + "#" + checksum) == policy
    decreases |policy|
  {
    if |policy| > 0 {
      var d := policy + "#" + checksum;
      assert d[1..] == policy[1..] + "#" + checksum;
      PolicyPartOfDescriptor(policy[1..], checksum);
      assert policy == [policy[0]] + policy[1..];
    }
  }

  /** A wallet's descriptor identifies its threshold and its key list in
      order: two wallets share a descriptor exactly when they were built from
      the same threshold and the same xpubs in the same order. */
  lemma DescriptorIdentifiesWallet(lib: DescriptorLibrary, xs: seq<Xpub>, m: nat, n1: Network, h1: Option<string>,
                                   ys: seq<Xpub>, k: nat, n2: Network, h2: Option<string>)
    requires NewWallet(lib, xs, m, n1, h1).Ok? && NewWallet(lib, ys, k, n2, h2).Ok?
    ensures NewWallet(lib, xs, m, n1, h1).value.descriptor == NewWallet(lib, ys, k, n2, h2).value.descriptor
            <==> xs == ys && m == k
  {
    var p1 := PolicyString(m, KeyStrings(xs));
    var p2 := PolicyString(k, KeyStrings(ys));
    if NewWallet(lib, xs, m, n1, h1).value.descriptor == NewWallet(lib, ys, k, n2, h2).value.descriptor {
      PolicyStringHasNoHash(m, xs);
      PolicyStringHasNoHash(k, ys);
      PolicyPartOfDescriptor(p1, lib.checksum(p1));
      PolicyPartOfDescriptor(p2, lib.checksum(p2));
      KeyStringsWellFormed(xs);
      KeyStringsWellFormed(ys);
      ParsePolicyString(m, KeyStrings(xs));
      ParsePolicyString(k, KeyStrings(ys));
      KeyStringsInjective(xs, ys);
    }
  }

  /** The descriptor round trip: the text before the checksum re-parses to
      the threshold and the member keys, in input order. */
  lemma DescriptorRoundTrip(lib: DescriptorLibrary, xpubs: seq<Xpub>, threshold: nat, network: Network, home: Option<string>)
    requires NewWallet(lib, xpubs, threshold, network, home).Ok?
    ensures ParsePolicy(PolicyPart(NewWallet(lib, xpubs, threshold, network, home).value.descriptor))
            == Some((threshold, KeyStrings(xpubs)))
  {
    var policy := PolicyString(threshold, KeyStrings(xpubs));
    PolicyStringHasNoHash(threshold, xpubs);
    PolicyPartOfDescriptor(policy, lib.checksum(policy));
    KeyStringsWellFormed(xpubs);
    ParsePolicyString(threshold, KeyStrings(xpubs));
  }

  /** Keys are never sorted: swapping two distinct xpubs changes the
      descriptor. */
  lemma SwappedKeysChangeDescriptor(lib: DescriptorLibrary, a: Xpub, b: Xpub, m: nat, n: Network, h: Option<string>)
    requires a != b
    requires NewWallet(lib, [a, b], m, n, h).Ok? && NewWallet(lib, [b, a], m, n, h).Ok?
    ensures NewWallet(lib, [a, b], m, n, h).value.descriptor != NewWallet(lib, [b, a], m, n, h).value.descriptor
  {
    DescriptorIdentifiesWallet(lib, [a, b], m, n, h, [b, a], m, n, h);
  }

  /** Saved wallet files, by path. */
  type WalletFiles = map<string, MultisigWallet>

  /** `MultisigWallet::load`: the record stored at `path`. */
  function LoadWallet(files: WalletFiles, path: string): (r: Result<MultisigWallet>)
    ensures r.Ok? <==> path in files
    ensures r.Ok? ==> r.value == files[path]
  {
    if path in files then Ok(files[path]) else Err("No such file or directory (os error 2)")
  }

  /** `MultisigWallet::save`: writes the record at its own path; loading that
      path gives the same wallet, and other paths keep their records. */
  function SaveWallet(files: WalletFiles, w: MultisigWallet): (r: WalletFiles)
    ensures LoadWallet(r, w.walletPath) == Ok(w)
    ensures r.Keys == files.Keys + {w.walletPath}
    ensures forall path :: path in files && path != w.walletPath ==> r[path] == files[path]
  {
    files[w.walletPath := w]
  }
}
